=== FILE: README.md ===
# Flappy Bird core, modelled in Dafny

This project models the integer core of `flappy.py`, a pygame Flappy Bird.
It proves properties of that model.

- **Leaderboard.** The persistent top-N score list: `add_score`, `get_top_scores` and `is_high_score`.
- **Pipes and the bird.** The pipe sprites and their geometry, `get_random_pipes`, and the bird's `bump`, `update` and `begin`.
- **The world.** `reset_game` lays out the world: ground tiles, pipe pairs and a score of 0. Each PLAYING tick then recycles the ground and pipe groups, scrolls them and scores.
- **The main loop.** This covers the event transitions between BEGIN, PLAYING and GAME_OVER, the leaderboard toggle, fullscreen and resize resets, and the single `add_score` on death.

Modules:

- `Config`: the game's constants.
- `Leaderboard`: class `Board` and the sort and rank functions that specify it.
- `Entities`: the `Pipe` value, `get_random_pipes` and class `Bird`.
- `Playfield`: class `World`, with the pipe and ground groups as sequences in group order, and the invariants a round keeps.
- `Control`: the pure event transition over the value `ControlState`.
- `MainLoop`: class `Game`, one frame at a time.

The random draws, the collision results, the bird's new rect top and the idle bobbing height are parameters.

Two invariants are proved to hold between frames of the model.

- **`Playfield.Steady`.** Three things hold:
  - The pipes form pairs PIPE_SPACING apart.
  - The ground covers the viewport.
  - Exactly the upright pipes whose centre the bird has passed are scored.
- **`MainLoop.Game.Valid`.** It joins `Steady` to the control state, the bird and the leaderboard.

The ground part of `Steady` holds only because the model's BEGIN tick recycles the ground as a PLAYING tick does. As written, the BEGIN branch (flappy.py:514-515) only scrolls the ground, and after enough idle frames no ground covers the viewport. The as-written behaviour is modelled and proved separately; see "## Findings".

## Model

| member | source | states |
|---|---|---|
| Extremes.MaxOf | flappy.py:566 | `max` over a non-empty list: an element that bounds every element |
| Extremes.MinOf | flappy.py:104 | `min` over a non-empty list: an element bounded by every element |
| Leaderboard.InsertDesc | flappy.py:87 | one insertion step of the descending sort: length +1, same elements plus `x`, head is the larger of `x` and the old head, keeps the list descending |
| Leaderboard.SortDesc | flappy.py:87 | `sort(reverse=True)`: a descending permutation of its input |
| Leaderboard.HeadIsLargest | flappy.py:87 | the head of a descending list is no smaller than any member |
| Leaderboard.TailsSameElements | flappy.py:87 | equal multisets with equal heads have equal tails' multisets |
| Leaderboard.SortedPermutationUnique | flappy.py:87 | two descending permutations of one multiset are equal, so any correct sort gives SortDesc's list |
| Leaderboard.Take | flappy.py:88 | `s[:n]`: a prefix of length `min(|s|, n)` |
| Leaderboard.AddedScores | flappy.py:86-88 | the list after a positive `add_score`: descending, length `min(old + 1, max_entries)`, drawn from the old entries plus the new score |
| Leaderboard.AddedScoresKeepsTop | flappy.py:86-88 | every kept entry is at least every entry the truncation cut off |
| Leaderboard.FirstIndex | flappy.py:90-91 | `s.index(x)` behind `x in s`: None exactly when absent, else the first position holding `x` |
| Leaderboard.Rank | flappy.py:90-93 | the 1-based rank: None exactly when the score is absent, else the first 1-based position holding it |
| Leaderboard.HighScore | flappy.py:100-104 | `is_high_score`: `score > 0` while the board is not full, otherwise true exactly when the score beats some entry; None for `min([])` on a full empty board |
| Leaderboard.BeatingScoreKept | flappy.py:86-88 | on a full board a score that beats some entry survives the cut |
| Leaderboard.KeptScoreBeatsOne | flappy.py:86-88 | on a full board a new score that survives beats the entry that was cut |
| Leaderboard.HighScoreIffRanked | flappy.py:81-104 | for a new positive score, `is_high_score` is true exactly when `add_score` keeps it |
| Leaderboard.SortTiedTriple | flappy.py:87 | sorting three equal entries leaves them in place |
| Leaderboard.TiedBoardKept | flappy.py:86-88 | a full board `[3, 3]` given a 3 keeps `[3, 3]` |
| Leaderboard.CutOffTieStillRanked | flappy.py:86-104 | a tie that is itself cut off still gets rank 1 from `add_score`, while `is_high_score` says it does not make the board |
| Leaderboard.Board.constructor | flappy.py:57-71 | the board starts with the loaded list, nothing saved yet |
| Leaderboard.Board.Save | flappy.py:73-79 | a save writes the current list to storage |
| Leaderboard.Board.AddScore | flappy.py:81-94 | a non-positive score returns None and changes nothing; otherwise the list becomes AddedScores and the rank is Rank; a rank lies in 1..max_entries, names the score, and comes with exactly one save; None means no save |
| Leaderboard.Board.TopScores | flappy.py:96-98 | a copy of the list, descending and within capacity once an add has normalised it |
| Leaderboard.Board.IsHighScore | flappy.py:100-104 | the object's `is_high_score` is HighScore of its fields |
| Entities.NewPipe | flappy.py:231-243 | an inverted pipe's bottom edge is at `ysize`, an upright pipe's top reaches `ysize` above the ground line; unscored |
| Entities.RandomPipes | flappy.py:267-275 | an upright and an inverted pipe at `xpos`, unscored, with a PIPE_GAP gap whose top edge is the draw, both edges at least 80 from the top and the ground |
| Entities.IsOffScreen | flappy.py:263-264 | a sprite is off screen when its right edge is left of 0; the recycling lemmas state what it implies |
| Entities.Scrolled | flappy.py:245-246 | `Pipe.update`: x drops by GAME_SPEED, nothing else changes |
| Entities.Bird.constructor | flappy.py:201-211 | the bird starts at a sixth of the viewport, half height, speed SPEED, frame 0 |
| Entities.Bird.Bump | flappy.py:219-220 | speed becomes -SPEED and nothing else changes |
| Entities.Bird.Update | flappy.py:213-217 | next animation frame mod 3, gravity added to the speed, the new rect top taken |
| Entities.Bird.Begin | flappy.py:222-227 | next animation frame mod 3, bobbing phase +0.1, the bobbing height taken, speed unchanged |
| Playfield.CeilDiv | flappy.py:191 | `math.ceil(a / b)`: the least `q` with `q * b >= a` |
| Playfield.NumPairs | flappy.py:338-339 | `ceil(vw / PIPE_SPACING) + 1` pairs: at least 2, and the last pair at or beyond the viewport's right edge, the one before it short of it |
| Playfield.GroundImageWidth | flappy.py:187-196 | the ground image for `2 * vw` is at least `2 * vw + 2 * tile` wide |
| Playfield.LaidOutPipes | flappy.py:338-341 | the first `m` pairs of the initial layout: `2 * m` pipes |
| Playfield.LaidOutAt | flappy.py:338-341 | pipe `k` of the layout belongs to pair `k / 2` at `vw + (k / 2) * PIPE_SPACING`; upright for even `k`; unscored; heights from draw `k / 2` |
| Playfield.LayoutPaired | flappy.py:326-343 | the initial pipes are paired, start at the viewport's right edge, reach at least a viewport further, and are unscored |
| Playfield.RightmostX | flappy.py:575 | `max(p.rect.x ...)`: the x of some pipe, no smaller than any pipe's x |
| Playfield.LeftmostIndex | flappy.py:571 | the index `sorted(..., key=x)[0]` picks: a least x, and no earlier pipe has it |
| Playfield.RemoveAt | flappy.py:574 | removing one pipe shortens the group by one; removing index 0 leaves the tail |
| Playfield.RecycledPipes | flappy.py:570-577 | the step on a paired group (pairs at even indices, oldest first): the recycled group keeps its size |
| Playfield.PairedOrder | flappy.py:570-577 | in a paired group the oldest pair lies left of all others and the newest pipe has the greatest x |
| Playfield.NewestIsRightmost | flappy.py:575 | after the oldest pair goes, the greatest remaining x is the newest pipe's |
| Playfield.RecycleDropsLeftmost | flappy.py:570-577 | the two removals take exactly the two smallest-x pipes (the oldest pair); the spawn point is the newest pipe's x |
| Playfield.RecycleSpawnsAt | flappy.py:572-577 | in a paired group of two or more pairs whose oldest pair is off screen, the new pair's x is PIPE_SPACING past `RightmostX` of the remaining pipes (the source's `max` over the group), not merely past the last pipe |
| Playfield.RecycleKeepsPaired | flappy.py:570-577 | recycling keeps the group paired |
| Playfield.ScrolledPipes | flappy.py:582 | `pipe_group.update()`: every pipe scrolled |
| Playfield.MarkScored | flappy.py:589-597 | the scoring pass marks each pipe by the rule; geometry and orientation unchanged; a set flag is never cleared; inverted pipes never change |
| Playfield.CountScoring | flappy.py:589-597 | the number of pipes that score; zero exactly when none does |
| Playfield.ScorePassCountsNewFlags | flappy.py:589-597 | the points a pass awards are exactly the flags it newly sets: the scored pipes after the pass number those before plus CountScoring |
| Playfield.Scores | flappy.py:591-593 | the scoring rule of one pipe: upright, not yet scored, and its centre in `[centre, centre + GAME_SPEED)` of the bird; its consequences are stated by MarkScored and CountScoring |
| Playfield.Marked | flappy.py:591-594 | one pipe after the rule: position and orientation kept, the flag set exactly when it was set or the rule fires |
| Playfield.ScorePassIdempotent | flappy.py:593 | the once-only flag: a second pass scores nothing and marks nothing new |
| Playfield.ScrollAndScoreKeepPassed | flappy.py:582-597 | scrolling then scoring keeps "scored exactly when upright and passed" |
| Playfield.ScrollKeepsPaired | flappy.py:582 | scrolling keeps the group paired |
| Playfield.MarkKeepsPaired | flappy.py:589-597 | scoring keeps the group paired |
| Playfield.RecycledGround | flappy.py:562-568 | the recycled ground keeps two tiles |
| Playfield.ScrolledGround | flappy.py:258-259 | `Ground.update` on every tile: x drops by GAME_SPEED |
| Playfield.GroundRecycleShape | flappy.py:562-568 | an off-screen first tile is replaced by one right after the second; otherwise nothing changes; the layout is kept |
| Playfield.AlignedGroundCovers | flappy.py:562-568 | an aligned ground of tiles wider than the viewport has a tile under every viewport column |
| Playfield.GroundTickKeepsAligned | flappy.py:562-581 | recycling then scrolling keeps the ground aligned |
| Playfield.IdleGroundAsWritten | flappy.py:514-515 | the BEGIN ground after some ticks as written: same tile count |
| Playfield.IdleGroundDrift | flappy.py:514-515 | without recycling, each tile drifts `ticks * GAME_SPEED` left |
| Playfield.IdleGroundRunsOut | flappy.py:514-515 | as written, `2W / GAME_SPEED + 1` idle ticks after a reset leave no ground under any viewport column |
| Playfield.InitialSteady | flappy.py:326-343 | a freshly laid-out world is steady for a bird inside the viewport |
| Playfield.RecycleKeepsPassed | flappy.py:570-577 | recycling keeps "scored exactly when upright and passed"; when the oldest pair is off screen, both pipes of the new pair are right of the viewport |
| Playfield.PlayingTickKeepsSteady | flappy.py:562-597 | a PLAYING tick of the world keeps it steady |
| Playfield.BeginTickKeepsSteady | flappy.py:514-515 | the corrected BEGIN ground tick (recycle, then scroll) keeps the world steady |
| Playfield.World.constructor | flappy.py:326-343 | the world part of `reset_game`: ground tiles at 0 and W, the laid-out pairs, score 0 |
| Playfield.World.RecycleGround | flappy.py:562-568 | the ground becomes RecycledGround, concretely the shifted pair or unchanged |
| Playfield.World.RemoveOldestPair | flappy.py:573-574 | the two removals of `sorted(...)[0]` drop exactly the first two pipes of a paired group, the oldest pair |
| Playfield.World.RecyclePipes | flappy.py:570-577 | the removals and the spawn turn the group into RecycledPipes |
| Playfield.World.ScrollGround | flappy.py:581 | the ground becomes ScrolledGround |
| Playfield.World.ScrollPipes | flappy.py:582 | the pipes become ScrolledPipes |
| Playfield.World.ScorePass | flappy.py:589-597 | the pipes become MarkScored and the score grows by exactly CountScoring |
| Playfield.World.Tick | flappy.py:562-597 | the world part of a PLAYING tick keeps it steady, with ground, pipes and score as the composed functions give |
| Control.Initial | flappy.py:444-450 | the game starts in BEGIN, running, leaderboard hidden, windowed, BASE_WIDTH wide, no rank |
| Control.Step | flappy.py:454-505 | one event: a quit key stops the loop and changes nothing else; a flap exactly on a flap input outside GAME_OVER, leading to PLAYING (hiding the leaderboard from BEGIN); a reset exactly on a resize, a fullscreen toggle or a GAME_OVER restart, leading to BEGIN; a restart clears the rank and the leaderboard; no event enters GAME_OVER; L toggles the leaderboard outside PLAYING and nothing else shows it; the viewport changes only with a reset and stays at least BASE_WIDTH, and a windowed resize makes it `max(BASE_WIDTH, w)`; an event without effect keeps the phase, and apart from quit and L keeps the whole control state; a flap in PLAYING changes nothing, from BEGIN it enters PLAYING with the leaderboard hidden; a restart from GAME_OVER gives BEGIN with no rank and the leaderboard hidden; a resize or fullscreen toggle changes only the phase (to BEGIN), the fullscreen flag and the width, so the leaderboard and the rank stay as they were |
| Control.StepKeepsConsistent | flappy.py:454-505 | events keep the viewport at least BASE_WIDTH and the leaderboard hidden while PLAYING |
| Control.Steps | flappy.py:454 | a batch of events never restarts a stopped loop |
| Control.StepsRunning | flappy.py:452-456 | after a batch the loop runs exactly when it did and no event asked it to stop |
| Control.LeaderboardToggleTwice | flappy.py:492-493 | L pressed twice outside PLAYING restores the control state |
| MainLoop.Dies | flappy.py:610-613 | the death test after a PLAYING tick: a ground hit, a pipe hit or the bird's top at or above 0; Frame states what follows from it |
| MainLoop.Game.constructor | flappy.py:444-450 | the initial round for BASE_WIDTH in BEGIN |
| MainLoop.Game.NewRound | flappy.py:326-343 | `reset_game`: a new bird and a new steady world with score 0 |
| MainLoop.Game.HandleEvent | flappy.py:455-505 | the control state follows Step; a flap bumps the bird (speed -SPEED, height kept); a reset builds a new round: a fresh laid-out world with score 0 and a new bird at half height with speed SPEED; otherwise the round is untouched |
| MainLoop.Game.HandleEvents | flappy.py:454-505 | after a frame's events the control state is Steps of them; without a reset among them the round's world and bird are the same objects, their bird keeps its height and has speed -SPEED exactly when some event flapped, and without a flap the bird is untouched; with a reset the world and bird are new and the round is freshly laid out with score 0, and if no flap follows, the bird is `reset_game`'s, at half height with speed SPEED; a flap without a reset leaves the game PLAYING |
| MainLoop.Game.BeginTick | flappy.py:510-515 | the BEGIN tick: the bird bobs; the corrected ground tick keeps the ground under the whole viewport |
| MainLoop.Game.PlayingTick | flappy.py:559-619 | the PLAYING tick advances the world and the bird. On death the score is added to the leaderboard exactly once, the rank is recorded and the game enters GAME_OVER. A ranked death saves the list once. Otherwise the control state and the leaderboard are unchanged |
| MainLoop.Game.RunHandler | flappy.py:510-640 | the handler of the current phase: BEGIN bobs the bird and moves the ground and keeps pipes and score; PLAYING ticks ground, pipes, score and bird, and on death adds the score once, records add_score's rank (None for a zero score) and enters GAME_OVER; GAME_OVER changes nothing |
| MainLoop.Game.Frame | flappy.py:452-640 | a frame keeps the invariant; the loop keeps running exactly when no event quit; the control state is Steps of the events, except that the phase becomes GAME_OVER exactly when the events leave PLAYING and the bird dies; the leaderboard then holds AddedScores of the old list and the score, the rank is Rank of the score in it (None and an unchanged list for a zero score), and a ranked score is saved; otherwise the leaderboard is untouched. Without a reset the round carries over: in BEGIN the ground is recycled and scrolled with pipes, score and the bird's speed kept, in PLAYING ground, pipes and score are the tick's functions of the old ones and the bird's speed is the flap or old speed plus GRAVITY; after a reset into BEGIN the round is the fresh layout with the ground moved on, and the new bird is at the idle height with speed SPEED; in GAME_OVER without a reset or flap the round is untouched |

## Left out

- `Leaderboard.load`, `save`, `get_data_dir` and `resource_path` are file-system and JSON I/O.
  - The loaded list is a constructor parameter.
  - A save is a ghost counter plus a ghost copy of the written list.
  - A load that yields non-integers, and a negative `max_entries`, are not modelled.
- Mask collision (`spritecollide` with `collide_mask`) is per-pixel overlap of asset images. The two results are boolean parameters; only the `rect.top <= 0` test is modelled.
- Bird physics uses floats. Speed is an exact rational, with 0.6 taken as exactly 3/5. The rect's integer top after `update` and the sine bobbing height after `begin` are parameters.
- Rendering, audio, `clock.tick`, the background surface, the scaling to the window height and the GAME_OVER drawing are left out. GAME_OVER changes nothing, so no method models it.
- `toggle_fullscreen` and VIDEORESIZE are display plumbing. Only their effect is modelled: a new viewport width, taken from the resize event or from the display, followed by a reset. Displays narrower than BASE_WIDTH are excluded.
- `random.randint` is a parameter in its range; the draws of a reset are a function from pair index to draw.
- Pipes are values in a sequence, not shared sprite objects. `Pipe.update` and the scoring loop therefore write a new sequence rather than mutating objects in place.
- `Playfield.World.RecycleGround`, `RecyclePipes`, `ScrollGround`, `ScrollPipes` and `ScorePass` do not restate the world invariant themselves. `World.Tick` re-establishes it through `PlayingTickKeepsSteady`.
- MainLoop.Game.Frame: when a reset and a later flap fall in the same frame, the round that then ticks in PLAYING is stated by HandleEvents (a fresh layout) and RunHandler (the tick) separately, not composed in Frame's own contract, to keep that proof small.
- MainLoop.Game.PlayingTick updates the bird before the world's recycling, where the source updates it after. Both steps touch disjoint state and the bird's centre is fixed, so the result is the same.
- `Leaderboard.SortDesc` specifies Python's built-in sort by its result, not by its algorithm.

## Findings

| source | as written | input that shows it | evidently intended | confidence | as-written member | corrected member |
|---|---|---|---|---|---|---|
| flappy.py:514-515 | the BEGIN state scrolls the ground every frame but never recycles it (recycling is only in PLAYING, flappy.py:562-568) | stay on the start screen for `2W/5 + 1` frames after a reset, W the ground image width (W ≥ 2·vw + 2·tile) | the ground keeps covering the viewport while the game waits | not executed | Playfield.IdleGroundRunsOut | MainLoop.Game.BeginTick |

=== FILE: config.dfy ===
/** The game's configuration constants (flappy.py, "CONFIG" block). */
module Config {

  const BASE_WIDTH: int := 400
  const BASE_HEIGHT: int := 600
  /** Magnitude of the upward velocity a flap gives the bird. */
  const SPEED: int := 6
  /** Per-tick velocity increment; a Python float, here an exact rational. */
  const GRAVITY: real := 0.6
  /** Pixels every pipe and ground tile scrolls left per tick. */
  const GAME_SPEED: int := 5

  const GROUND_HEIGHT: int := 100
  const PIPE_WIDTH: int := 80
  const PIPE_HEIGHT: int := 500
  const PIPE_GAP: int := 150
  const PIPE_SPACING: int := 300

  const MAX_LEADERBOARD_ENTRIES: nat := 10

  /** Height of the playfield above the ground band. */
  const PLAY_HEIGHT: int := BASE_HEIGHT - GROUND_HEIGHT
}

=== FILE: control.dfy ===
/**
 * The event half of the main loop (flappy.py:452-505): what one pygame
 * event does to the game's control state. The effects on the bird and the
 * world (a flap, a reset of the round) are returned as an `Effect` that
 * the main loop carries out.
 */
module Control {
  import opened Wrappers
  import opened Config

  datatype Phase = Begin | Playing | GameOver

  /** The keys the loop distinguishes; every other key is `OtherKey`. */
  datatype Key = KeyQ | Escape | F11 | KeyF | Space | Up | KeyR | KeyL | OtherKey

  datatype Event =
    | Quit
    | Resize(width: int)
    | KeyDown(key: Key)
    | MouseDown
    | OtherEvent

  /**
   * The loop's control variables: `state`, `running`, `show_leaderboard`,
   * `is_fullscreen`, the viewport width and `final_rank`.
   */
  datatype ControlState = ControlState(
    phase: Phase,
    running: bool,
    showLeaderboard: bool,
    fullscreen: bool,
    viewportWidth: int,
    finalRank: Option<nat>)

  /** What the main loop does to the bird and the world after an event. */
  datatype Effect = NoEffect | Flap | Reset

  datatype Transition = Transition(next: ControlState, effect: Effect)

  predicate IsQuit(e: Event)
  {
    e.Quit? || (e.KeyDown? && (e.key == KeyQ || e.key == Escape))
  }

  predicate IsFlapInput(e: Event)
  {
    (e.KeyDown? && (e.key == Space || e.key == Up)) || e.MouseDown?
  }

  predicate IsFullscreenToggle(e: Event)
  {
    e.KeyDown? && (e.key == F11 || e.key == KeyF)
  }

  predicate IsRestartKey(e: Event)
  {
    e.KeyDown? && (e.key == KeyR || e.key == Space || e.key == Up)
  }

  /** The events that lay out a new round for a new viewport. */
  predicate ChangesViewport(c: ControlState, e: Event)
  {
    (e.Resize? && !c.fullscreen) || IsFullscreenToggle(e)
  }

  /** The state a game starts in: BEGIN, windowed, BASE_WIDTH wide. */
  function Initial(): (c: ControlState)
    ensures c.phase == Begin && c.running && !c.showLeaderboard
    ensures !c.fullscreen && c.viewportWidth == BASE_WIDTH && c.finalRank == None
  {
    ControlState(Begin, true, false, false, BASE_WIDTH, None)
  }

  /**
   * One event. `displayWidth` is the width the display reports when
   * fullscreen is switched on.
   */
  function Step(c: ControlState, e: Event, displayWidth: int): (t: Transition)
    // Only the quit events stop the loop, and nothing restarts it.
    ensures t.next.running == (c.running && !IsQuit(e))
    // A flap happens exactly on a flap input outside GAME_OVER, and leaves the game PLAYING.
    ensures t.effect == Flap <==> IsFlapInput(e) && c.phase != GameOver
    ensures t.effect == Flap ==> t.next.phase == Playing
    ensures t.effect == Flap && c.phase == Begin ==> !t.next.showLeaderboard
    // A reset happens exactly on a viewport change or a restart from GAME_OVER, and leads to BEGIN.
    ensures t.effect == Reset <==>
      ChangesViewport(c, e) || (c.phase == GameOver && IsRestartKey(e))
    ensures t.effect == Reset ==> t.next.phase == Begin
    ensures c.phase == GameOver && IsRestartKey(e) ==>
      t.next.finalRank == None && !t.next.showLeaderboard
    // No event enters GAME_OVER; only a restart clears the final rank.
    ensures t.next.phase == GameOver ==> c.phase == GameOver
    ensures t.next.finalRank != c.finalRank ==>
      c.phase == GameOver && IsRestartKey(e) && t.next.finalRank == None
    // L toggles the leaderboard outside PLAYING, and nothing else shows it.
    ensures e == KeyDown(KeyL) && c.phase != Playing ==>
      t.next.showLeaderboard == !c.showLeaderboard && t.effect == NoEffect
    ensures t.next.showLeaderboard && !c.showLeaderboard ==>
      e == KeyDown(KeyL) && c.phase != Playing
    // The viewport changes only with a reset, and never below BASE_WIDTH.
    ensures t.next.viewportWidth != c.viewportWidth ==> t.effect == Reset
    ensures ChangesViewport(c, e) && displayWidth >= BASE_WIDTH ==> t.next.viewportWidth >= BASE_WIDTH
    ensures IsFullscreenToggle(e) ==>
      t.next.fullscreen == !c.fullscreen &&
      t.next.viewportWidth == (if t.next.fullscreen then displayWidth else BASE_WIDTH)
    ensures !IsFullscreenToggle(e) ==> t.next.fullscreen == c.fullscreen
    // A viewport change touches only the phase, the fullscreen flag and the width:
    // the leaderboard and the final rank stay as they were.
    ensures ChangesViewport(c, e) ==>
      t.next == c.(phase := Begin, fullscreen := t.next.fullscreen, viewportWidth := t.next.viewportWidth)
    // A windowed resize takes the event's width, but never less than BASE_WIDTH.
    ensures e.Resize? && !c.fullscreen ==>
      t.next.viewportWidth == (if e.width > BASE_WIDTH then e.width else BASE_WIDTH)
    // Quitting changes nothing else; an event without effect keeps the phase,
    // and apart from quitting and L it keeps the whole control state.
    ensures IsQuit(e) ==> t == Transition(c.(running := false), NoEffect)
    ensures t.effect == NoEffect ==> t.next.phase == c.phase
    ensures !IsQuit(e) && t.effect == NoEffect && e != KeyDown(KeyL) ==> t.next == c
    // The flap and restart transitions in full.
    ensures t.effect == Flap && c.phase == Playing ==> t.next == c
    ensures t.effect == Flap && c.phase == Begin ==>
      t.next == c.(phase := Playing, showLeaderboard := false)
    ensures c.phase == GameOver && IsRestartKey(e) ==>
      t == Transition(c.(phase := Begin, showLeaderboard := false, finalRank := None), Reset)
  {
    match e
    case Quit => Transition(c.(running := false), NoEffect)
    case Resize(w) =>
      if c.fullscreen then Transition(c, NoEffect)
      else
        var width := if w > BASE_WIDTH then w else BASE_WIDTH;
        Transition(c.(viewportWidth := width, phase := Begin), Reset)
    case KeyDown(k) =>
      if k == KeyQ || k == Escape then Transition(c.(running := false), NoEffect)
      else if k == F11 || k == KeyF then
        var fullscreen := !c.fullscreen;
        var width := if fullscreen then displayWidth else BASE_WIDTH;
        Transition(c.(fullscreen := fullscreen, viewportWidth := width, phase := Begin), Reset)
      else if c.phase == Begin && (k == Space || k == Up) then
        Transition(c.(phase := Playing, showLeaderboard := false), Flap)
      else if c.phase == Playing && (k == Space || k == Up) then
        Transition(c, Flap)
      else if c.phase == GameOver && (k == KeyR || k == Space || k == Up) then
        Transition(c.(phase := Begin, showLeaderboard := false, finalRank := None), Reset)
      else if (c.phase == GameOver || c.phase == Begin) && k == KeyL then
        Transition(c.(showLeaderboard := !c.showLeaderboard), NoEffect)
      else
        // The case split on the phase the verifier needs for the flap and L postconditions.
        assert c.phase.Begin? || c.phase.Playing? || c.phase.GameOver?;
        Transition(c, NoEffect)
    case MouseDown =>
      (match c.phase
       case Begin => Transition(c.(phase := Playing, showLeaderboard := false), Flap)
       case Playing => Transition(c, Flap)
       case GameOver => Transition(c, NoEffect))
    case OtherEvent => Transition(c, NoEffect)
  }

  /**
   * What holds of the control state between events: the viewport is at
   * least BASE_WIDTH wide and the leaderboard is hidden while PLAYING.
   */
  ghost predicate Consistent(c: ControlState)
  {
    c.viewportWidth >= BASE_WIDTH && (c.phase == Playing ==> !c.showLeaderboard)
  }

  lemma StepKeepsConsistent(c: ControlState, e: Event, displayWidth: int)
    requires Consistent(c) && displayWidth >= BASE_WIDTH
    ensures Consistent(Step(c, e, displayWidth).next)
  {
  }

  /** The control state after a batch of events, in order. */
  function Steps(c: ControlState, es: seq<Event>, displayWidth: int): (r: ControlState)
    // The cheap half of StepsRunning, kept on the function so every caller has it.
    ensures r.running ==> c.running
    decreases |es|
  {
    if es == [] then c
    else Steps(Step(c, es[0], displayWidth).next, es[1..], displayWidth)
  }

  /** Whether some event of the batch, taken in order from `c`, has effect `effect`. */
  predicate SomeStepHas(c: ControlState, es: seq<Event>, displayWidth: int, effect: Effect)
    decreases |es|
  {
    es != [] &&
    (Step(c, es[0], displayWidth).effect == effect ||
     SomeStepHas(Step(c, es[0], displayWidth).next, es[1..], displayWidth, effect))
  }

  /** After a batch the loop keeps running exactly when it was and no event asked it to stop. */
  lemma {:induction false} StepsRunning(c: ControlState, es: seq<Event>, displayWidth: int)
    ensures Steps(c, es, displayWidth).running <==>
      c.running && forall i :: 0 <= i < |es| ==> !IsQuit(es[i])
    decreases |es|
  {
    if es != [] {
      StepsRunning(Step(c, es[0], displayWidth).next, es[1..], displayWidth);
      assert forall i :: 1 <= i < |es| ==> es[i] == es[1..][i - 1];
    }
  }

  /** L pressed twice outside PLAYING leaves the leaderboard as it was. */
  lemma LeaderboardToggleTwice(c: ControlState, displayWidth: int)
    requires c.phase != Playing
    ensures Steps(c, [KeyDown(KeyL), KeyDown(KeyL)], displayWidth) == c
  {
    var once := Step(c, KeyDown(KeyL), displayWidth).next;
    assert [KeyDown(KeyL), KeyDown(KeyL)][1..] == [KeyDown(KeyL)];
    assert Steps(once, [KeyDown(KeyL)], displayWidth) == Step(once, KeyDown(KeyL), displayWidth).next by {
      assert [KeyDown(KeyL)][1..] == [];
    }
  }
}

=== FILE: entities.dfy ===
/**
 * The sprites of the game: pipes (values; flappy.py:230-246), the pair
 * generator get_random_pipes (flappy.py:267-275) and the bird, whose fields
 * are updated in place (flappy.py:200-227).
 *
 * A pipe's image is scaled to PIPE_WIDTH x PIPE_HEIGHT, so its rect has
 * that size; only the rect's integer corner and the `scored` flag vary.
 */
module Entities {
  import opened Config

  /** The range `random.randint` draws the top pipe's visible height from. */
  const MIN_TOP: int := 80
  const MAX_TOP: int := PLAY_HEIGHT - PIPE_GAP - 80

  predicate InDrawRange(top: int)
  {
    MIN_TOP <= top <= MAX_TOP
  }

  /** A pipe sprite: orientation, rect corner and the once-only score flag. */
  datatype Pipe = Pipe(inverted: bool, x: int, y: int, scored: bool)
  {
    /** rect.right */
    function Right(): int { x + PIPE_WIDTH }
    /** rect.centerx */
    function Mid(): int { x + PIPE_WIDTH / 2 }
    /** rect.bottom */
    function Bottom(): int { y + PIPE_HEIGHT }
  }

  /** `is_off_screen`: the rect's right edge is left of the screen. */
  predicate IsOffScreen(x: int, width: int)
  {
    x + width < 0
  }

  /**
   * `Pipe(inverted, xpos, ysize)`: `ysize` is how far the pipe reaches into
   * the playfield, down from the top for an inverted pipe and up from the
   * ground line for an upright one.
   */
  function NewPipe(inverted: bool, xpos: int, ysize: int): (p: Pipe)
    ensures p.inverted == inverted && p.x == xpos && !p.scored
    ensures inverted ==> p.Bottom() == ysize
    ensures !inverted ==> p.y + ysize == PLAY_HEIGHT
  {
    if inverted then Pipe(true, xpos, -(PIPE_HEIGHT - ysize), false)
    else Pipe(false, xpos, BASE_HEIGHT - GROUND_HEIGHT - ysize, false)
  }

  /**
   * `get_random_pipes(xpos)` with the random draw `top` as a parameter:
   * an upright and an inverted pipe at `xpos` leaving a PIPE_GAP-high gap
   * whose edges stay at least MIN_TOP away from the top and the ground.
   */
  function RandomPipes(xpos: int, top: int): (r: (Pipe, Pipe))
    requires InDrawRange(top)
    ensures !r.0.inverted && r.1.inverted
    ensures r.0.x == xpos && r.1.x == xpos
    ensures !r.0.scored && !r.1.scored
    ensures r.1.Bottom() == top
    ensures r.1.Bottom() + PIPE_GAP == r.0.y
    ensures MIN_TOP <= r.1.Bottom() && r.0.y <= PLAY_HEIGHT - MIN_TOP
  {
    var playHeight := BASE_HEIGHT - GROUND_HEIGHT;
    var bottomHeight := playHeight - PIPE_GAP - top;
    (NewPipe(false, xpos, bottomHeight), NewPipe(true, xpos, top))
  }

  /** `Pipe.update`: the pipe moves GAME_SPEED to the left and nothing else changes. */
  function Scrolled(p: Pipe): (q: Pipe)
    ensures q.x == p.x - GAME_SPEED
    ensures q.inverted == p.inverted && q.y == p.y && q.scored == p.scored
  {
    p.(x := p.x - GAME_SPEED)
  }

  /**
   * The bird. Its rect's x is fixed at a sixth of the viewport width and its
   * width is that of its (asset) image; `speed` is a Python float, modelled
   * as an exact rational.
   */
  class Bird {
    const x: int
    const width: int
    var y: int
    var speed: real
    /** Index of the current animation frame. */
    var frame: nat
    var idleAngle: real

    ghost predicate Valid()
      reads this
    {
      frame < 3
    }

    /** rect.centerx, the point the scoring rule compares pipes against. */
    function Mid(): int
      reads this
    {
      x + width / 2
    }

    constructor (viewportWidth: int, width: int)
      requires viewportWidth >= 0
      ensures Valid()
      ensures x == viewportWidth / 6 && this.width == width
      ensures y == BASE_HEIGHT / 2 && speed == SPEED as real
      ensures frame == 0 && idleAngle == 0.0
    {
      x := viewportWidth / 6;
      this.width := width;
      y := BASE_HEIGHT / 2;
      speed := SPEED as real;
      frame := 0;
      idleAngle := 0.0;
    }

    /** `bump`: an immediate upward velocity, nothing else changes. */
    method Bump()
      modifies this
      ensures speed == -(SPEED as real)
      ensures y == old(y) && frame == old(frame) && idleAngle == old(idleAngle)
    {
      speed := -(SPEED as real);
    }

    /**
     * `update`: next frame, gravity added to the velocity; the rect's new
     * top `newY` (the old top plus the float velocity, converted by the
     * rect) is supplied by the caller.
     */
    method Update(newY: int)
      requires Valid()
      modifies this
      ensures Valid()
      ensures frame == (old(frame) + 1) % 3
      ensures speed == old(speed) + GRAVITY
      ensures y == newY && idleAngle == old(idleAngle)
    {
      frame := (frame + 1) % 3;
      speed := speed + GRAVITY;
      y := newY;
    }

    /**
     * `begin`: next frame and a step of the idle bobbing phase; the bobbing
     * height `idleY` (centre plus ten times a sine) is supplied.
     */
    method Begin(idleY: int)
      requires Valid()
      requires BASE_HEIGHT / 2 - 10 <= idleY <= BASE_HEIGHT / 2 + 10
      modifies this
      ensures Valid()
      ensures frame == (old(frame) + 1) % 3
      ensures idleAngle == old(idleAngle) + 0.1
      ensures y == idleY && speed == old(speed)
    {
      frame := (frame + 1) % 3;
      idleAngle := idleAngle + 0.1;
      y := idleY;
    }
  }
}

=== FILE: extremes.dfy ===
/** Python's `max` and `min` over a non-empty sequence of integers. */
module Extremes {

  function MaxOf(xs: seq<int>): (m: int)
    requires |xs| > 0
    ensures m in xs
    ensures forall i :: 0 <= i < |xs| ==> xs[i] <= m
  {
    if |xs| == 1 then xs[0]
    else
      var rest := MaxOf(xs[1..]);
      if xs[0] >= rest then xs[0] else rest
  }

  function MinOf(xs: seq<int>): (m: int)
    requires |xs| > 0
    ensures m in xs
    ensures forall i :: 0 <= i < |xs| ==> m <= xs[i]
  {
    if |xs| == 1 then xs[0]
    else
      var rest := MinOf(xs[1..]);
      if xs[0] <= rest then xs[0] else rest
  }
}

=== FILE: leaderboard.dfy ===
/**
 * The persistent top-N score list (class Leaderboard, flappy.py:56-104).
 *
 * `add_score` appends, sorts descending, truncates to `max_entries` and
 * reports the 1-based position of the first entry equal to the new score.
 * Sorting is Python's `list.sort(reverse=True)`; it is specified here by
 * the insertion sort SortDesc, and SortedPermutationUnique shows that any
 * other sorting algorithm would give the same list.
 */
module Leaderboard {
  import opened Wrappers
  import opened Extremes

  predicate SortedDesc(s: seq<int>)
  {
    forall i, j :: 0 <= i < j < |s| ==> s[i] >= s[j]
  }

  /** Inserts `x` before the first element smaller than it. */
  function InsertDesc(x: int, s: seq<int>): (r: seq<int>)
    ensures |r| == |s| + 1
    ensures multiset(r) == multiset(s) + multiset{x}
    ensures r[0] == if s == [] || x >= s[0] then x else s[0]
    ensures SortedDesc(s) ==> SortedDesc(r)
  {
    if s == [] then [x]
    else if x >= s[0] then [x] + s
    else
      var tail := InsertDesc(x, s[1..]);
      assert s == [s[0]] + s[1..];
      assert multiset([s[0]] + tail) == multiset{s[0]} + multiset(tail);
      [s[0]] + tail
  }

  /** The list `sort(reverse=True)` leaves behind. */
  function SortDesc(s: seq<int>): (r: seq<int>)
    ensures |r| == |s|
    ensures multiset(r) == multiset(s)
    ensures SortedDesc(r)
  {
    if s == [] then []
    else
      assert s == [s[0]] + s[1..];
      InsertDesc(s[0], SortDesc(s[1..]))
  }

  /** The head of a non-empty descending list is its largest element. */
  lemma HeadIsLargest(s: seq<int>, x: int)
    requires SortedDesc(s) && x in s
    ensures s[0] >= x
  {
    var k :| 0 <= k < |s| && s[k] == x;
  }

  lemma SortedTail(s: seq<int>)
    requires SortedDesc(s) && s != []
    ensures SortedDesc(s[1..])
  {
  }

  /** Removing equal heads from equal multisets leaves equal multisets. */
  lemma TailsSameElements(a: seq<int>, b: seq<int>)
    requires a != [] && b != [] && a[0] == b[0]
    requires multiset(a) == multiset(b)
    ensures multiset(a[1..]) == multiset(b[1..])
  {
    assert a == [a[0]] + a[1..] && b == [b[0]] + b[1..];
    assert multiset(a[1..]) == multiset(a) - multiset{a[0]};
    assert multiset(b[1..]) == multiset(b) - multiset{b[0]};
  }

  /** Two descending lists with the same elements are the same list. */
  lemma {:induction false} SortedPermutationUnique(a: seq<int>, b: seq<int>)
    requires SortedDesc(a) && SortedDesc(b)
    requires multiset(a) == multiset(b)
    ensures a == b
  {
    if a == [] {
      assert |b| == |multiset(b)| == 0;
    } else {
      assert |b| == |multiset(b)| == |multiset(a)| == |a|;
      assert a[0] in multiset(b) && b[0] in multiset(a);
      HeadIsLargest(b, a[0]);
      HeadIsLargest(a, b[0]);
      TailsSameElements(a, b);
      SortedTail(a);
      SortedTail(b);
      SortedPermutationUnique(a[1..], b[1..]);
      assert a == [a[0]] + a[1..] && b == [b[0]] + b[1..];
    }
  }

  /** Python's `s[:n]` for a non-negative `n`. */
  function Take(s: seq<int>, n: nat): (r: seq<int>)
    ensures |r| == if |s| <= n then |s| else n
    ensures r == s[..|r|]
  {
    if |s| <= n then s else s[..n]
  }

  /** The score list after `add_score(score)` with a positive score. */
  function AddedScores(scores: seq<int>, score: int, maxEntries: nat): (r: seq<int>)
    ensures SortedDesc(r)
    ensures |r| == if |scores| + 1 <= maxEntries then |scores| + 1 else maxEntries
    ensures multiset(r) <= multiset(scores) + multiset{score}
  {
    var full := SortDesc(scores + [score]);
    assert full == Take(full, maxEntries) + full[|Take(full, maxEntries)|..];
    assert multiset(full) == multiset(Take(full, maxEntries)) + multiset(full[|Take(full, maxEntries)|..]);
    Take(full, maxEntries)
  }

  /**
   * The kept entries are the largest of the old entries plus the new score:
   * every value that was cut off is no larger than any value that was kept.
   */
  lemma {:induction false} AddedScoresKeepsTop(scores: seq<int>, score: int, maxEntries: nat, i: int, dropped: int)
    requires 0 <= i < |AddedScores(scores, score, maxEntries)|
    requires dropped in multiset(scores) + multiset{score} - multiset(AddedScores(scores, score, maxEntries))
    ensures AddedScores(scores, score, maxEntries)[i] >= dropped
  {
    var full := SortDesc(scores + [score]);
    var r := AddedScores(scores, score, maxEntries);
    var rest := full[|r|..];
    assert dropped in multiset(rest) by {
      assert full == r + rest;
      assert multiset(full) == multiset(r) + multiset(rest);
      assert multiset(scores + [score]) == multiset(scores) + multiset{score};
    }
    var j :| 0 <= j < |rest| && rest[j] == dropped;
    assert r == full[..|r|];
    assert full[i] == r[i];
    assert full[|r| + j] == rest[j];
  }

  /** Python's `s.index(x)` guarded by `x in s`: the first position of `x`. */
  function FirstIndex(s: seq<int>, x: int): (r: Option<nat>)
    ensures r.None? <==> x !in s
    ensures r.Some? ==> r.value < |s| && s[r.value] == x
    ensures r.Some? ==> forall j :: 0 <= j < r.value ==> s[j] != x
  {
    if s == [] then None
    else if s[0] == x then Some(0)
    else
      match FirstIndex(s[1..], x)
      case None => None
      case Some(i) => Some(i + 1)
  }

  /** The 1-based rank `add_score` reports for `score` in the new list `s`. */
  function Rank(s: seq<int>, score: int): (r: Option<nat>)
    ensures r.None? <==> score !in s
    ensures r.Some? ==> 1 <= r.value <= |s| && s[r.value - 1] == score
    ensures r.Some? ==> forall j :: 0 <= j < r.value - 1 ==> s[j] != score
  {
    match FirstIndex(s, score)
    case None => None
    case Some(i) => Some(i + 1)
  }

  /** `is_high_score`; None stands for the ValueError `min([])` raises. */
  function HighScore(scores: seq<int>, maxEntries: nat, score: int): (r: Option<bool>)
    ensures r.None? <==> |scores| >= maxEntries && scores == []
    ensures |scores| < maxEntries ==> r == Some(score > 0)
    ensures |scores| >= maxEntries && scores != [] ==>
      (r == Some(true) <==> exists i :: 0 <= i < |scores| && score > scores[i])
  {
    if |scores| < maxEntries then Some(score > 0)
    else if scores == [] then None
    else
      var m := MinOf(scores);
      assert score > m ==> exists i :: 0 <= i < |scores| && score > scores[i] by {
        var k :| 0 <= k < |scores| && scores[k] == m;
      }
      Some(score > m)
  }

  /** In a full board, a new score beating some entry survives the cut. */
  lemma BeatingScoreKept(scores: seq<int>, score: int, full: seq<int>, i: int)
    requires SortedDesc(full) && |full| == |scores| + 1
    requires multiset(full) == multiset(scores) + multiset{score}
    requires 0 <= i < |scores| && score > scores[i]
    ensures score in full[..|scores|]
  {
    assert score in multiset(full) && scores[i] in multiset(full);
    var k :| 0 <= k < |full| && full[k] == score;
    var ki :| 0 <= ki < |full| && full[ki] == scores[i];
    assert k < ki;
    assert full[..|scores|][k] == score;
  }

  /** In a full board, a surviving new score beats the entry that was cut. */
  lemma KeptScoreBeatsOne(scores: seq<int>, score: int, full: seq<int>)
    requires SortedDesc(full) && |full| == |scores| + 1
    requires multiset(full) == multiset(scores) + multiset{score}
    requires score in full[..|scores|] && score !in scores
    ensures exists i :: 0 <= i < |scores| && score > scores[i]
  {
    var r, d := full[..|scores|], full[|scores|];
    assert full == r + [d];
    assert multiset(r) + multiset{d} == multiset(scores) + multiset{score};
    var k :| 0 <= k < |r| && r[k] == score;
    assert full[k] == score;
    assert d in multiset(r) + multiset{d};
    assert d in multiset(scores);
    var j :| 0 <= j < |scores| && scores[j] == d;
    assert score > scores[j];
  }

  /**
   * For a board no longer than its capacity and a positive score not yet on
   * it, `is_high_score` predicts exactly whether `add_score` keeps the score.
   */
  lemma {:induction false} HighScoreIffRanked(scores: seq<int>, maxEntries: nat, score: int)
    requires 0 < score && 0 < maxEntries && |scores| <= maxEntries
    requires score !in scores
    ensures HighScore(scores, maxEntries, score) == Some(score in AddedScores(scores, score, maxEntries))
  {
    var full := SortDesc(scores + [score]);
    assert multiset(scores + [score]) == multiset(scores) + multiset{score};
    var r := AddedScores(scores, score, maxEntries);
    if |scores| < maxEntries {
      assert r == full;
      assert score in multiset(full);
    } else {
      assert r == full[..|scores|];
      if score in r {
        KeptScoreBeatsOne(scores, score, full);
      } else if exists i :: 0 <= i < |scores| && score > scores[i] {
        var i :| 0 <= i < |scores| && score > scores[i];
        BeatingScoreKept(scores, score, full, i);
      }
    }
  }

  /** Sorting three equal entries leaves them as they are. */
  lemma SortTiedTriple()
    ensures SortDesc([3, 3, 3]) == [3, 3, 3]
  {
    assert [3, 3, 3][1..] == [3, 3] && [3, 3][1..] == [3] && [3][1..] == [];
    assert SortDesc([3]) == [3];
    assert SortDesc([3, 3]) == InsertDesc(3, [3]) == [3, 3];
  }

  /** A full board of 3s given another 3 keeps two 3s. */
  lemma TiedBoardKept()
    ensures AddedScores([3, 3], 3, 2) == [3, 3]
  {
    assert [3, 3] + [3] == [3, 3, 3];
    SortTiedTriple();
    assert [3, 3, 3][..2] == [3, 3];
  }

  /**
   * A score that ties the last kept entry is itself cut off, yet `add_score`
   * still reports the rank of the equal entry that survived, while
   * `is_high_score` says the score does not make the board.
   */
  lemma CutOffTieStillRanked()
    ensures AddedScores([3, 3], 3, 2) == [3, 3]
    ensures Rank(AddedScores([3, 3], 3, 2), 3) == Some(1)
    ensures HighScore([3, 3], 2, 3) == Some(false)
  {
    TiedBoardKept();
    assert FirstIndex([3, 3], 3) == Some(0);
  }

  /**
   * The leaderboard object. `load()` is replaced by the `loaded` list the
   * constructor receives; `save()` by the ghost counter `saves` and the
   * ghost copy `persisted` of what was last written.
   */
  class Board {
    var scores: seq<int>
    const maxEntries: nat
    /** Number of `save()` calls. */
    ghost var saves: nat
    /** The list stable storage holds. */
    ghost var persisted: seq<int>
    /** Number of `add_score` calls. */
    ghost var calls: nat
    /** True once an `add_score` with a positive score has re-sorted the list. */
    ghost var normalised: bool

    ghost predicate Valid()
      reads this
    {
      normalised ==> SortedDesc(scores) && |scores| <= maxEntries
    }

    constructor (maxEntries: nat, loaded: seq<int>)
      ensures Valid()
      ensures this.maxEntries == maxEntries && scores == loaded
      ensures persisted == loaded && saves == 0 && calls == 0
    {
      this.maxEntries := maxEntries;
      scores := loaded;
      persisted := loaded;
      saves := 0;
      calls := 0;
      normalised := false;
    }

    ghost method Save()
      modifies this`saves, this`persisted
      ensures saves == old(saves) + 1 && persisted == scores
    {
      saves := saves + 1;
      persisted := scores;
    }

    /** `add_score`: returns the new score's rank, or None. */
    method AddScore(score: int) returns (rank: Option<nat>)
      requires Valid()
      modifies this
      ensures Valid()
      ensures calls == old(calls) + 1
      ensures score <= 0 ==> rank == None && scores == old(scores)
      ensures score <= 0 ==> normalised == old(normalised)
      ensures score > 0 ==> normalised && scores == AddedScores(old(scores), score, maxEntries)
      ensures score > 0 ==> rank == Rank(scores, score)
      ensures rank.Some? ==> 1 <= rank.value <= maxEntries && scores[rank.value - 1] == score
      ensures rank.Some? ==> saves == old(saves) + 1 && persisted == scores
      ensures rank.None? ==> saves == old(saves) && persisted == old(persisted)
    {
      calls := calls + 1;
      if score <= 0 {
        return None;
      }
      scores := scores + [score];
      scores := SortDesc(scores);
      scores := Take(scores, maxEntries);
      assert scores == AddedScores(old(scores), score, maxEntries);
      normalised := true;
      rank := Rank(scores, score);
      if rank.Some? {
        Save();
      }
    }

    /** `get_top_scores`: a copy of the list, descending once normalised. */
    function TopScores(): (r: seq<int>)
      requires Valid()
      reads this
      ensures r == scores
      ensures normalised ==> SortedDesc(r) && |r| <= maxEntries
    {
      scores
    }

    function IsHighScore(score: int): (r: Option<bool>)
      reads this
      ensures r == HighScore(scores, maxEntries, score)
    {
      HighScore(scores, maxEntries, score)
    }
  }
}

=== FILE: mainloop.dfy ===
/**
 * The main loop of flappy.py (flappy.py:443-671): the game's control
 * state, the current round (bird and world) and the leaderboard, one frame
 * at a time. A frame handles the pending events and then runs the handler
 * of the current state: BEGIN bobs the bird and moves the ground, PLAYING
 * advances the world and the bird, scores and checks for death, GAME_OVER
 * only draws.
 *
 * The random draws of `get_random_pipes`, the sine of the idle bobbing, the
 * bird's new rect top and the two mask-collision results are parameters.
 */
module MainLoop {
  import opened Wrappers
  import opened Config
  import opened Entities
  import opened Leaderboard
  import opened Playfield
  import opened Control

  /** The death test of a PLAYING frame: a ground hit, a pipe hit or the top edge. */
  predicate Dies(hitGround: bool, hitPipe: bool, birdTop: int)
  {
    hitGround || hitPipe || birdTop <= 0
  }

  class Game {
    var ctl: ControlState
    var world: World
    var bird: Bird
    /** The module-level `leaderboard`. */
    const board: Board
    /** The width the display reports when fullscreen is switched on. */
    const displayWidth: int
    /** Width of the ground tile asset. */
    const tileWidth: int
    /** Width of the bird images. */
    const birdWidth: int

    ghost predicate Valid()
      reads this, world, bird, board
    {
      Consistent(ctl) &&
      displayWidth >= BASE_WIDTH && tileWidth > 0 && 0 <= birdWidth <= BASE_WIDTH &&
      world.Valid() &&
      world.viewportWidth == ctl.viewportWidth &&
      world.groundWidth == GroundImageWidth(ctl.viewportWidth, tileWidth) &&
      bird.Valid() && bird.x == ctl.viewportWidth / 6 && bird.width == birdWidth &&
      world.SteadyFor(bird.Mid()) &&
      board.Valid() &&
      (ctl.finalRank.Some? ==> 1 <= ctl.finalRank.value <= board.maxEntries)
    }

    /** The round `reset_game` lays out: no score, two ground tiles, the pipe pairs drawn by `draw`. */
    ghost predicate FreshRound(draw: nat -> int)
      reads this, world
    {
      world.FreshPipes(draw) && world.grounds == [0, world.groundWidth]
    }

    /** The state before the first frame: `reset_game` for BASE_WIDTH, state BEGIN. */
    constructor (board: Board, displayWidth: int, tileWidth: int, birdWidth: int, draw: nat -> int)
      requires board.Valid() && ValidDraws(draw)
      requires displayWidth >= BASE_WIDTH && tileWidth > 0 && 0 <= birdWidth <= BASE_WIDTH
      ensures Valid()
      ensures ctl == Initial() && this.board == board
      ensures fresh(world) && fresh(bird)
      ensures world.score == 0 && world.grounds == [0, world.groundWidth]
      ensures world.pipes == LaidOutPipes(BASE_WIDTH, draw, NumPairs(BASE_WIDTH))
      ensures bird.y == BASE_HEIGHT / 2 && bird.speed == SPEED as real
    {
      ctl := Initial();
      this.board := board;
      this.displayWidth := displayWidth;
      this.tileWidth := tileWidth;
      this.birdWidth := birdWidth;
      bird := new Bird(BASE_WIDTH, birdWidth);
      world := new World(BASE_WIDTH, tileWidth, draw);
      new;
      InitialSteady(BASE_WIDTH, tileWidth, draw, bird.Mid());
    }

    /** `reset_game(viewport_width)`: a new bird and a new world; score 0. */
    method NewRound(draw: nat -> int)
      requires ctl.viewportWidth >= BASE_WIDTH && tileWidth > 0 && 0 <= birdWidth <= BASE_WIDTH
      requires ValidDraws(draw)
      modifies this`world, this`bird
      ensures fresh(world) && fresh(bird)
      ensures world.Valid() && bird.Valid()
      ensures world.viewportWidth == ctl.viewportWidth
      ensures world.groundWidth == GroundImageWidth(ctl.viewportWidth, tileWidth)
      ensures bird.x == ctl.viewportWidth / 6 && bird.width == birdWidth
      ensures world.SteadyFor(bird.Mid())
      ensures world.score == 0 && world.grounds == [0, world.groundWidth]
      ensures world.pipes == LaidOutPipes(ctl.viewportWidth, draw, NumPairs(ctl.viewportWidth))
      ensures bird.y == BASE_HEIGHT / 2 && bird.speed == SPEED as real
    {
      bird := new Bird(ctl.viewportWidth, birdWidth);
      world := new World(ctl.viewportWidth, tileWidth, draw);
      InitialSteady(ctl.viewportWidth, tileWidth, draw, bird.Mid());
    }

    /**
     * One event of the `for event in pygame.event.get()` loop: the control
     * transition, then its effect on the round.
     */
    method HandleEvent(e: Event, draw: nat -> int)
      requires Valid() && ValidDraws(draw)
      modifies this, bird
      ensures Valid()
      ensures ctl == Step(old(ctl), e, displayWidth).next
      ensures Step(old(ctl), e, displayWidth).effect == Flap ==>
        world == old(world) && bird == old(bird) &&
        bird.speed == -(SPEED as real) && bird.y == old(bird.y)
      ensures Step(old(ctl), e, displayWidth).effect == Reset ==>
        fresh(world) && fresh(bird) && FreshRound(draw) &&
        bird.y == BASE_HEIGHT / 2 && bird.speed == SPEED as real
      ensures Step(old(ctl), e, displayWidth).effect == NoEffect ==>
        world == old(world) && bird == old(bird) && unchanged(bird)
    {
      var t := Step(ctl, e, displayWidth);
      StepKeepsConsistent(ctl, e, displayWidth);
      ctl := t.next;
      match t.effect
      case NoEffect =>
      case Flap =>
        bird.Bump();
      case Reset =>
        NewRound(draw);
    }

    /**
     * The BEGIN handler: the bird bobs and the ground moves. The ground is
     * recycled before it moves, as in a PLAYING frame, so it keeps covering
     * the viewport however long the game waits.
     */
    method BeginTick(idleY: int)
      requires Valid() && ctl.phase == Begin
      requires BASE_HEIGHT / 2 - 10 <= idleY <= BASE_HEIGHT / 2 + 10
      modifies bird, world`grounds
      ensures Valid()
      ensures world.grounds == ScrolledGround(RecycledGround(old(world.grounds), world.groundWidth))
      ensures GroundCovers(world.grounds, world.groundWidth, ctl.viewportWidth)
      ensures bird.y == idleY && bird.speed == old(bird.speed)
    {
      bird.Begin(idleY);
      ghost var ps := world.pipes;
      ghost var gs := world.grounds;
      world.RecycleGround();
      world.ScrollGround();
      BeginTickKeepsSteady(world.viewportWidth, world.groundWidth, ps, gs, bird.Mid());
      AlignedGroundCovers(world.grounds, world.groundWidth, world.viewportWidth);
    }

    /**
     * The PLAYING handler: move the bird, advance the world, and on death
     * record the score on the leaderboard and enter GAME_OVER. The source
     * updates the bird between recycling and moving the world; the two
     * touch disjoint state, so the bird is updated first here.
     */
    method PlayingTick(top: int, newY: int, hitGround: bool, hitPipe: bool)
      requires Valid() && ctl.phase == Playing && InDrawRange(top)
      modifies this`ctl, world, bird, board
      ensures Valid()
      ensures world.grounds == ScrolledGround(RecycledGround(old(world.grounds), world.groundWidth))
      ensures world.pipes == MarkScored(ScrolledPipes(RecycledPipes(old(world.pipes), top)), bird.Mid())
      ensures world.score ==
        old(world.score) + CountScoring(ScrolledPipes(RecycledPipes(old(world.pipes), top)), bird.Mid())
      ensures GroundCovers(world.grounds, world.groundWidth, ctl.viewportWidth)
      ensures bird.y == newY && bird.speed == old(bird.speed) + GRAVITY
      // Death records the score exactly once and ends the round.
      ensures Dies(hitGround, hitPipe, newY) ==>
        ctl == old(ctl).(phase := GameOver, finalRank := ctl.finalRank) &&
        board.calls == old(board.calls) + 1
      ensures Dies(hitGround, hitPipe, newY) && world.score > 0 ==>
        board.scores == AddedScores(old(board.scores), world.score, board.maxEntries) &&
        ctl.finalRank == Rank(board.scores, world.score)
      ensures Dies(hitGround, hitPipe, newY) && world.score == 0 ==>
        ctl.finalRank == None && board.scores == old(board.scores)
      ensures Dies(hitGround, hitPipe, newY) ==>
        board.saves == old(board.saves) + (if ctl.finalRank.Some? then 1 else 0) &&
        (ctl.finalRank.Some? ==> board.persisted == board.scores)
      ensures !Dies(hitGround, hitPipe, newY) ==> ctl == old(ctl) && unchanged(board)
    {
      bird.Update(newY);
      world.Tick(top, bird.Mid());
      AlignedGroundCovers(world.grounds, world.groundWidth, world.viewportWidth);
      if Dies(hitGround, hitPipe, bird.y) {
        var rank := board.AddScore(world.score);
        ctl := ctl.(phase := GameOver, finalRank := rank);
      }
    }

    /**
     * The state handlers after the events: BEGIN bobs the bird and moves the
     * ground, PLAYING ticks the round and may end it, GAME_OVER changes nothing.
     */
    method RunHandler(idleY: int, top: int, newY: int, hitGround: bool, hitPipe: bool)
      requires Valid() && InDrawRange(top)
      requires BASE_HEIGHT / 2 - 10 <= idleY <= BASE_HEIGHT / 2 + 10
      modifies this`ctl, world, bird, board
      ensures Valid()
      ensures ctl == if old(ctl.phase) == Playing && Dies(hitGround, hitPipe, newY)
                     then old(ctl).(phase := GameOver, finalRank := ctl.finalRank)
                     else old(ctl)
      ensures board.calls ==
        old(board.calls) + (if old(ctl.phase) == Playing && Dies(hitGround, hitPipe, newY) then 1 else 0)
      ensures board.calls == old(board.calls) ==> unchanged(board)
      ensures old(ctl.phase) == Playing && Dies(hitGround, hitPipe, newY) ==>
        (if world.score > 0
         then board.scores == AddedScores(old(board.scores), world.score, board.maxEntries) &&
              ctl.finalRank == Rank(board.scores, world.score)
         else board.scores == old(board.scores) && ctl.finalRank == None) &&
        board.saves == old(board.saves) + (if ctl.finalRank.Some? then 1 else 0) &&
        (ctl.finalRank.Some? ==> board.persisted == board.scores)
      ensures old(ctl.phase) == Begin ==>
        world.grounds == ScrolledGround(RecycledGround(old(world.grounds), world.groundWidth)) &&
        world.pipes == old(world.pipes) && world.score == old(world.score) &&
        bird.y == idleY && bird.speed == old(bird.speed)
      ensures old(ctl.phase) == Playing ==>
        world.grounds == ScrolledGround(RecycledGround(old(world.grounds), world.groundWidth)) &&
        world.pipes == MarkScored(ScrolledPipes(RecycledPipes(old(world.pipes), top)), bird.Mid()) &&
        world.score ==
          old(world.score) + CountScoring(ScrolledPipes(RecycledPipes(old(world.pipes), top)), bird.Mid()) &&
        bird.y == newY && bird.speed == old(bird.speed) + GRAVITY
      ensures old(ctl.phase) == GameOver ==> unchanged(world, bird)
    {
      if ctl.phase == Begin {
        BeginTick(idleY);
      } else if ctl.phase == Playing {
        PlayingTick(top, newY, hitGround, hitPipe);
      }
    }

    /**
     * The `for event in pygame.event.get()` loop over one frame's events, in
     * order. Without a reset the round's objects stay; without a flap too,
     * the bird is untouched; after a reset the round is a fresh layout for
     * the current viewport.
     */
    method HandleEvents(events: seq<Event>, draw: nat -> int)
      requires Valid() && ValidDraws(draw)
      modifies this, bird
      ensures Valid()
      ensures ctl == Steps(old(ctl), events, displayWidth)
      ensures !SomeStepHas(old(ctl), events, displayWidth, Reset) ==>
        world == old(world) && bird == old(bird)
      ensures (!SomeStepHas(old(ctl), events, displayWidth, Reset) &&
               !SomeStepHas(old(ctl), events, displayWidth, Flap)) ==> unchanged(bird)
      ensures !SomeStepHas(old(ctl), events, displayWidth, Reset) ==>
        bird.y == old(bird.y) &&
        bird.speed == if SomeStepHas(old(ctl), events, displayWidth, Flap) then -(SPEED as real) else old(bird.speed)
      ensures SomeStepHas(old(ctl), events, displayWidth, Reset) ==>
        fresh(world) && fresh(bird) && FreshRound(draw)
      // A flap without a reset leaves the game PLAYING; a reset not followed by a
      // flap leaves reset_game's bird.
      ensures (!SomeStepHas(old(ctl), events, displayWidth, Reset) &&
               SomeStepHas(old(ctl), events, displayWidth, Flap)) ==> ctl.phase == Playing
      ensures SomeStepHas(old(ctl), events, displayWidth, Reset) && ctl.phase == Begin ==>
        bird.y == BASE_HEIGHT / 2 && bird.speed == SPEED as real
      ensures world == old(world) || fresh(world)
      ensures bird == old(bird) || fresh(bird)
    {
      ghost var reset, flapped := false, false;
      for i := 0 to |events|
        invariant Valid()
        invariant world == old(world) || fresh(world)
        invariant bird == old(bird) || fresh(bird)
        invariant Steps(old(ctl), events, displayWidth) == Steps(ctl, events[i..], displayWidth)
        invariant SomeStepHas(old(ctl), events, displayWidth, Reset) ==
          (reset || SomeStepHas(ctl, events[i..], displayWidth, Reset))
        invariant SomeStepHas(old(ctl), events, displayWidth, Flap) ==
          (flapped || SomeStepHas(ctl, events[i..], displayWidth, Flap))
        invariant !reset ==> world == old(world) && bird == old(bird)
        invariant !reset && !flapped ==> unchanged(bird)
        invariant !reset ==>
          bird.y == old(bird.y) && bird.speed == if flapped then -(SPEED as real) else old(bird.speed)
        invariant reset ==> fresh(world) && fresh(bird) && FreshRound(draw)
        invariant !reset && flapped ==> ctl.phase == Playing
        invariant reset && ctl.phase == Begin ==> bird.y == BASE_HEIGHT / 2 && bird.speed == SPEED as real
      {
        assert events[i..][0] == events[i] && events[i..][1..] == events[i + 1..];
        var effect := Step(ctl, events[i], displayWidth).effect;
        HandleEvent(events[i], draw);
        reset := reset || effect == Reset;
        flapped := flapped || effect == Flap;
      }
      assert events[|events|..] == [];
    }

    /**
     * One iteration of `while running`: the events in order, then the
     * handler of the state they leave the game in.
     */
    method Frame(events: seq<Event>, draw: nat -> int, idleY: int,
                 top: int, newY: int, hitGround: bool, hitPipe: bool)
      requires Valid() && ValidDraws(draw) && InDrawRange(top)
      requires BASE_HEIGHT / 2 - 10 <= idleY <= BASE_HEIGHT / 2 + 10
      modifies this, world, bird, board
      ensures Valid()
      ensures ctl.running <==> old(ctl.running) && forall i :: 0 <= i < |events| ==> !IsQuit(events[i])
      // The control state is the events' result, except that death in PLAYING ends the round.
      ensures var afterEvents := Steps(old(ctl), events, displayWidth);
        ctl == if afterEvents.phase == Playing && Dies(hitGround, hitPipe, newY)
               then afterEvents.(phase := GameOver, finalRank := ctl.finalRank)
               else afterEvents
      // The leaderboard takes a score exactly when the frame ends the round.
      ensures var afterEvents := Steps(old(ctl), events, displayWidth);
        board.calls == old(board.calls) +
          (if afterEvents.phase == Playing && Dies(hitGround, hitPipe, newY) then 1 else 0)
      ensures board.calls == old(board.calls) ==> unchanged(board)
      // On death the leaderboard is add_score's and the rank is its answer, saved when ranked.
      ensures var afterEvents := Steps(old(ctl), events, displayWidth);
        afterEvents.phase == Playing && Dies(hitGround, hitPipe, newY) ==>
          (if world.score > 0
           then board.scores == AddedScores(old(board.scores), world.score, board.maxEntries) &&
                ctl.finalRank == Rank(board.scores, world.score)
           else board.scores == old(board.scores) && ctl.finalRank == None) &&
          board.saves == old(board.saves) + (if ctl.finalRank.Some? then 1 else 0) &&
          (ctl.finalRank.Some? ==> board.persisted == board.scores)
      // Without a reset the round carries over and the handler of the phase the
      // events leave moves it on: BEGIN scrolls the ground, PLAYING ticks the world.
      ensures !SomeStepHas(old(ctl), events, displayWidth, Reset) ==>
        world == old(world) && bird == old(bird)
      ensures var afterEvents := Steps(old(ctl), events, displayWidth);
        !SomeStepHas(old(ctl), events, displayWidth, Reset) && afterEvents.phase == Begin ==>
          world.grounds == ScrolledGround(RecycledGround(old(world.grounds), world.groundWidth)) &&
          world.pipes == old(world.pipes) && world.score == old(world.score) &&
          bird.y == idleY && bird.speed == old(bird.speed)
      ensures var afterEvents := Steps(old(ctl), events, displayWidth);
        !SomeStepHas(old(ctl), events, displayWidth, Reset) && afterEvents.phase == Playing ==>
          world.grounds == ScrolledGround(RecycledGround(old(world.grounds), world.groundWidth)) &&
          world.pipes == MarkScored(ScrolledPipes(RecycledPipes(old(world.pipes), top)), bird.Mid()) &&
          world.score ==
            old(world.score) + CountScoring(ScrolledPipes(RecycledPipes(old(world.pipes), top)), bird.Mid()) &&
          bird.y == newY &&
          bird.speed == (if SomeStepHas(old(ctl), events, displayWidth, Flap) then -(SPEED as real)
                         else old(bird.speed)) + GRAVITY
      // After a reset into BEGIN the round is the fresh layout with the ground moved on.
      ensures var afterEvents := Steps(old(ctl), events, displayWidth);
        SomeStepHas(old(ctl), events, displayWidth, Reset) && afterEvents.phase == Begin ==>
          fresh(world) && world.FreshPipes(draw) &&
          world.grounds == ScrolledGround(RecycledGround([0, world.groundWidth], world.groundWidth)) &&
          fresh(bird) && bird.y == idleY && bird.speed == SPEED as real
      // In GAME_OVER a frame without a reset or a flap leaves the round as it was.
      ensures Steps(old(ctl), events, displayWidth).phase == GameOver &&
              !SomeStepHas(old(ctl), events, displayWidth, Reset) &&
              !SomeStepHas(old(ctl), events, displayWidth, Flap) ==>
        world == old(world) && bird == old(bird) && unchanged(world, bird)
    {
      HandleEvents(events, draw);
      StepsRunning(old(ctl), events, displayWidth);
      RunHandler(idleY, top, newY, hitGround, hitPipe);
    }
  }
}

=== FILE: playfield.dfy ===
/**
 * The world the PLAYING state advances each tick (flappy.py:562-597): the
 * pipe group, the ground group and the score, together with the initial
 * layout `reset_game` builds (flappy.py:326-343).
 *
 * Pygame groups keep their sprites in insertion order; they are modelled
 * as sequences in that order. Pipes are values, so `Pipe.update` and the
 * scoring pass write a new sequence rather than updating shared objects.
 */
module Playfield {
  import opened Config
  import opened Entities
  import opened Extremes

  /** Python's `math.ceil(a / b)` for a positive divisor. */
  function CeilDiv(a: int, b: int): (q: int)
    requires b > 0
    ensures q * b >= a && (q - 1) * b < a
  {
    var q := (a + b - 1) / b;
    assert a + b - 1 == q * b + (a + b - 1) % b;
    q
  }

  /** The number of pipe pairs `reset_game` spawns: enough to span the viewport, plus one. */
  function NumPairs(viewportWidth: int): (n: int)
    requires viewportWidth > 0
    ensures n >= 2
    ensures (n - 1) * PIPE_SPACING >= viewportWidth
    ensures (n - 2) * PIPE_SPACING < viewportWidth
  {
    CeilDiv(viewportWidth, PIPE_SPACING) + 1
  }

  /** Width of `create_ground_image(2 * viewportWidth)` built from `tileWidth`-wide tiles. */
  function GroundImageWidth(viewportWidth: int, tileWidth: int): (w: int)
    requires viewportWidth > 0 && tileWidth > 0
    ensures w >= 2 * viewportWidth + 2 * tileWidth
  {
    (CeilDiv(2 * viewportWidth, tileWidth) + 2) * tileWidth
  }

  /** Every value a random source yields is a legal top height. */
  ghost predicate ValidDraws(draw: nat -> int)
  {
    forall i :: InDrawRange(draw(i))
  }

  /* ---------------- The pipe group ---------------- */

  /** The two pipes of one pair: the gap between them is PIPE_GAP high and in range. */
  predicate GapPair(bottom: Pipe, top: Pipe)
  {
    top.Bottom() + PIPE_GAP == bottom.y && InDrawRange(top.Bottom())
  }

  /**
   * The pipe group is a run of pairs, oldest first: pipe 2k is upright,
   * pipe 2k+1 its inverted partner at the same x, and each pair stands
   * PIPE_SPACING to the right of the previous one.
   */
  ghost predicate Paired(ps: seq<Pipe>)
  {
    |ps| >= 2 && |ps| % 2 == 0 &&
    (forall k :: 0 <= k < |ps| ==>
      ps[k].inverted == (k % 2 == 1) && ps[k].x == ps[0].x + (k / 2) * PIPE_SPACING) &&
    (forall k :: 0 <= k < |ps| && k % 2 == 1 ==> GapPair(ps[k - 1], ps[k]))
  }

  /** The first `m` pairs of the layout `reset_game` builds for a viewport. */
  function LaidOutPipes(viewportWidth: int, draw: nat -> int, m: nat): (ps: seq<Pipe>)
    requires ValidDraws(draw)
    ensures |ps| == 2 * m
  {
    seq(2 * m, k requires 0 <= k < 2 * m =>
      var pair := RandomPipes(viewportWidth + (k / 2) * PIPE_SPACING, draw(k / 2));
      if k % 2 == 0 then pair.0 else pair.1)
  }

  /** Pipe `k` of the layout: the `k / 2`-th pair's upright (even `k`) or inverted pipe. */
  lemma LaidOutAt(viewportWidth: int, draw: nat -> int, m: nat, k: nat)
    requires ValidDraws(draw) && k < 2 * m
    ensures var p := LaidOutPipes(viewportWidth, draw, m)[k];
      p.inverted == (k % 2 == 1) && p.x == viewportWidth + (k / 2) * PIPE_SPACING && !p.scored &&
      (k % 2 == 1 ==> p.Bottom() == draw(k / 2)) &&
      (k % 2 == 0 ==> p.y == draw(k / 2) + PIPE_GAP)
  {
  }

  /**
   * The initial layout: pairs from x = viewportWidth on, spaced PIPE_SPACING
   * apart, none scored, the last one at least a viewport width further right.
   */
  lemma LayoutPaired(viewportWidth: int, draw: nat -> int)
    requires viewportWidth > 0 && ValidDraws(draw)
    ensures var ps := LaidOutPipes(viewportWidth, draw, NumPairs(viewportWidth));
      Paired(ps) && ps[0].x == viewportWidth &&
      ps[|ps| - 1].x >= 2 * viewportWidth &&
      forall k :: 0 <= k < |ps| ==> !ps[k].scored
  {
    var n := NumPairs(viewportWidth);
    var ps := LaidOutPipes(viewportWidth, draw, n);
    LaidOutAt(viewportWidth, draw, n, 0);
    forall k | 0 <= k < |ps|
      ensures ps[k].inverted == (k % 2 == 1) && ps[k].x == ps[0].x + (k / 2) * PIPE_SPACING
      ensures !ps[k].scored
    {
      LaidOutAt(viewportWidth, draw, n, k);
    }
    forall k | 0 <= k < |ps| && k % 2 == 1 ensures GapPair(ps[k - 1], ps[k]) {
      LaidOutAt(viewportWidth, draw, n, k);
      LaidOutAt(viewportWidth, draw, n, k - 1);
      assert (k - 1) / 2 == k / 2;
    }
    LaidOutAt(viewportWidth, draw, n, |ps| - 1);
  }

  /** `max(p.rect.x for p in group)`. */
  function RightmostX(ps: seq<Pipe>): (m: int)
    requires |ps| > 0
    ensures exists k :: 0 <= k < |ps| && ps[k].x == m
    ensures forall k :: 0 <= k < |ps| ==> ps[k].x <= m
  {
    if |ps| == 1 then ps[0].x
    else
      var rest := RightmostX(ps[1..]);
      assert forall k :: 1 <= k < |ps| ==> ps[1..][k - 1] == ps[k];
      if ps[0].x >= rest then ps[0].x else rest
  }

  /** Index `sorted(group, key=x)[0]` picks: the first pipe of least x. */
  function LeftmostIndex(ps: seq<Pipe>): (i: nat)
    requires |ps| > 0
    ensures i < |ps|
    ensures forall k :: 0 <= k < |ps| ==> ps[i].x <= ps[k].x
    ensures forall k :: 0 <= k < i ==> ps[k].x > ps[i].x
  {
    if |ps| == 1 then 0
    else
      var j := LeftmostIndex(ps[1..]) + 1;
      if ps[0].x <= ps[j].x then 0 else j
  }

  /** `pipe_group.remove(p)` for the pipe at index `i`. */
  function RemoveAt(ps: seq<Pipe>, i: nat): (r: seq<Pipe>)
    requires i < |ps|
    ensures |r| == |ps| - 1
    ensures i == 0 ==> r == ps[1..]
  {
    ps[..i] + ps[i + 1..]
  }

  /**
   * The recycling step on a paired group: when the oldest pair is off
   * screen it goes, and a new pair comes in PIPE_SPACING right of the
   * newest pipe. RecycleDropsLeftmost and RecycleSpawnsAt show this is what
   * removing the leftmost pipe twice and spawning at the greatest remaining
   * x gives.
   */
  function RecycledPipes(ps: seq<Pipe>, top: int): (r: seq<Pipe>)
    requires Paired(ps) && InDrawRange(top)
    ensures |r| == |ps|
  {
    if !IsOffScreen(ps[0].x, PIPE_WIDTH) then ps
    else
      var pair := RandomPipes(ps[|ps| - 1].x + PIPE_SPACING, top);
      ps[2..] + [pair.0, pair.1]
  }

  /** In a paired group the oldest pair lies strictly left of every other pipe. */
  lemma PairedOrder(ps: seq<Pipe>)
    requires Paired(ps)
    ensures ps[1].x == ps[0].x
    ensures forall k :: 2 <= k < |ps| ==> ps[0].x < ps[k].x
    ensures forall k :: 0 <= k < |ps| ==> ps[k].x <= ps[|ps| - 1].x
  {
    forall k | 0 <= k < |ps| ensures ps[k].x <= ps[|ps| - 1].x {
      assert k / 2 <= (|ps| - 1) / 2;
    }
  }

  /** Once the oldest pair is gone, the newest pipe has the greatest x. */
  lemma NewestIsRightmost(ps: seq<Pipe>)
    requires Paired(ps) && |ps| >= 4
    ensures RightmostX(ps[2..]) == ps[|ps| - 1].x
  {
    PairedOrder(ps);
    var rest := ps[2..];
    var m := RightmostX(rest);
    assert rest[|rest| - 1] == ps[|ps| - 1];
    var j :| 0 <= j < |rest| && rest[j].x == m;
    assert rest[j] == ps[j + 2];
  }

  /**
   * Recycling a paired group is the procedure of flappy.py:570-576:
   * `sorted(...)[0]` picks the first pipe, and after its removal the
   * second; both lie strictly left of all others; the new pair goes
   * PIPE_SPACING right of the greatest remaining x.
   */
  lemma RecycleDropsLeftmost(ps: seq<Pipe>)
    requires Paired(ps) && |ps| >= 4
    ensures LeftmostIndex(ps) == 0 && RemoveAt(ps, 0) == ps[1..]
    ensures LeftmostIndex(ps[1..]) == 0 && RemoveAt(ps[1..], 0) == ps[2..]
    ensures forall k :: 2 <= k < |ps| ==> ps[0].x == ps[1].x < ps[k].x
    ensures RightmostX(ps[2..]) == ps[|ps| - 1].x
  {
    PairedOrder(ps);
    assert LeftmostIndex(ps) == 0;
    assert LeftmostIndex(ps[1..]) == 0 by {
      assert forall k :: 0 <= k < |ps| - 1 ==> ps[1..][k] == ps[k + 1];
    }
    assert ps[1..][1..] == ps[2..];
    NewestIsRightmost(ps);
  }

  /**
   * When the oldest pair is off screen, the recycled group is the rest
   * followed by a new pair PIPE_SPACING right of the greatest remaining x.
   */
  lemma RecycleSpawnsAt(ps: seq<Pipe>, top: int)
    requires Paired(ps) && |ps| >= 4 && InDrawRange(top) && IsOffScreen(ps[0].x, PIPE_WIDTH)
    ensures var pair := RandomPipes(RightmostX(ps[2..]) + PIPE_SPACING, top);
      RecycledPipes(ps, top) == ps[2..] + [pair.0, pair.1]
  {
    var m := RightmostX(ps[2..]);
    assert m == ps[|ps| - 1].x by { NewestIsRightmost(ps); }
    var pair := RandomPipes(m + PIPE_SPACING, top);
    assert RecycledPipes(ps, top) == ps[2..] + [pair.0, pair.1];
  }

  /** Recycling keeps the group paired. */
  lemma RecycleKeepsPaired(ps: seq<Pipe>, top: int)
    requires Paired(ps) && |ps| >= 4 && InDrawRange(top)
    ensures Paired(RecycledPipes(ps, top))
  {
    PairedOrder(ps);
    if IsOffScreen(ps[0].x, PIPE_WIDTH) {
      var pair := RandomPipes(ps[|ps| - 1].x + PIPE_SPACING, top);
      var r := ps[2..] + [pair.0, pair.1];
      assert |r| == |ps|;
      forall k | 0 <= k < |r|
        ensures r[k].inverted == (k % 2 == 1) && r[k].x == r[0].x + (k / 2) * PIPE_SPACING
      {
        if k < |ps| - 2 {
          assert r[k] == ps[k + 2];
          assert (k + 2) / 2 == k / 2 + 1 && (k + 2) % 2 == k % 2;
        } else {
          assert (|ps| - 1) / 2 == (|ps| - 2) / 2 == k / 2;
        }
      }
      forall k | 0 <= k < |r| && k % 2 == 1 ensures GapPair(r[k - 1], r[k]) {
        if k < |ps| - 2 {
          assert r[k] == ps[k + 2] && r[k - 1] == ps[k + 1];
        }
      }
    }
  }

  /** `pipe_group.update()`: every pipe scrolled left. */
  function ScrolledPipes(ps: seq<Pipe>): (r: seq<Pipe>)
    ensures |r| == |ps| && forall k :: 0 <= k < |ps| ==> r[k] == Scrolled(ps[k])
  {
    seq(|ps|, k requires 0 <= k < |ps| => Scrolled(ps[k]))
  }

  /** Whether the scoring rule fires for `p` when the bird's centre is at `birdMid`. */
  predicate Scores(p: Pipe, birdMid: int)
  {
    !p.inverted && p.Mid() <= birdMid < p.Mid() + GAME_SPEED && !p.scored
  }

  /** One pipe after the scoring rule is applied to it: the flag is set exactly when the rule fires. */
  function Marked(p: Pipe, birdMid: int): (q: Pipe)
    ensures q.inverted == p.inverted && q.x == p.x && q.y == p.y
    ensures q.scored <==> p.scored || Scores(p, birdMid)
  {
    if Scores(p, birdMid) then p.(scored := true) else p
  }

  /** The pipe group after the scoring pass. */
  function MarkScored(ps: seq<Pipe>, birdMid: int): (r: seq<Pipe>)
    ensures |r| == |ps| && forall k :: 0 <= k < |ps| ==> r[k] == Marked(ps[k], birdMid)
    ensures forall k :: 0 <= k < |ps| ==>
      r[k].inverted == ps[k].inverted && r[k].x == ps[k].x && r[k].y == ps[k].y
    ensures forall k :: 0 <= k < |ps| && ps[k].scored ==> r[k].scored
    ensures forall k :: 0 <= k < |ps| && ps[k].inverted ==> r[k].scored == ps[k].scored
  {
    seq(|ps|, k requires 0 <= k < |ps| => Marked(ps[k], birdMid))
  }

  /** Points the scoring pass awards: the pipes for which the rule fires. */
  function CountScoring(ps: seq<Pipe>, birdMid: int): (n: nat)
    ensures n <= |ps|
    ensures n == 0 <==> forall k :: 0 <= k < |ps| ==> !Scores(ps[k], birdMid)
  {
    if ps == [] then 0
    else
      var init := ps[..|ps| - 1];
      assert forall k :: 0 <= k < |init| ==> init[k] == ps[k];
      CountScoring(init, birdMid) + if Scores(ps[|ps| - 1], birdMid) then 1 else 0
  }

  /** Counting one more pipe of a prefix. */
  lemma CountScoringStep(ps: seq<Pipe>, i: nat, birdMid: int)
    requires i < |ps|
    ensures CountScoring(ps[..i + 1], birdMid) ==
      CountScoring(ps[..i], birdMid) + if Scores(ps[i], birdMid) then 1 else 0
  {
    assert ps[..i + 1][..i] == ps[..i];
  }

  /** A second scoring pass at the same bird position awards nothing and changes nothing. */
  lemma ScorePassIdempotent(ps: seq<Pipe>, birdMid: int)
    ensures CountScoring(MarkScored(ps, birdMid), birdMid) == 0
    ensures MarkScored(MarkScored(ps, birdMid), birdMid) == MarkScored(ps, birdMid)
  {
  }

  /**
   * The scoring invariant: a pipe is scored exactly when it is upright and
   * its centre is at or left of the bird's centre.
   */
  ghost predicate ScoredIffPassed(ps: seq<Pipe>, birdMid: int)
  {
    forall k :: 0 <= k < |ps| ==> (ps[k].scored <==> !ps[k].inverted && ps[k].Mid() <= birdMid)
  }

  /**
   * Scrolling moves every centre GAME_SPEED left, so the invariant holds
   * against a bird GAME_SPEED further left until the scoring pass catches up:
   * the pass scores exactly the pipes whose centre has just crossed the bird.
   */
  lemma {:induction false} ScrollAndScoreKeepPassed(ps: seq<Pipe>, birdMid: int)
    requires ScoredIffPassed(ps, birdMid)
    ensures ScoredIffPassed(MarkScored(ScrolledPipes(ps), birdMid), birdMid)
  {
    var s := ScrolledPipes(ps);
    var r := MarkScored(s, birdMid);
    forall k | 0 <= k < |r| ensures r[k].scored <==> !r[k].inverted && r[k].Mid() <= birdMid {
      assert s[k].Mid() == ps[k].Mid() - GAME_SPEED;
      assert s[k].scored <==> !s[k].inverted && s[k].Mid() + GAME_SPEED <= birdMid;
    }
  }

  /** Scrolling moves whole pairs, so the group stays paired. */
  lemma ScrollKeepsPaired(ps: seq<Pipe>)
    requires Paired(ps)
    ensures Paired(ScrolledPipes(ps))
  {
    var s := ScrolledPipes(ps);
    forall k | 0 <= k < |s| && k % 2 == 1 ensures GapPair(s[k - 1], s[k]) {
      assert GapPair(ps[k - 1], ps[k]);
    }
  }

  /** Scoring changes only flags, so the group stays paired. */
  lemma MarkKeepsPaired(ps: seq<Pipe>, birdMid: int)
    requires Paired(ps)
    ensures Paired(MarkScored(ps, birdMid))
  {
    var m := MarkScored(ps, birdMid);
    forall k | 0 <= k < |m| && k % 2 == 1 ensures GapPair(m[k - 1], m[k]) {
      assert GapPair(ps[k - 1], ps[k]);
    }
  }

  /* ---------------- The ground group ---------------- */

  /** Two tiles of the ground image's width, the second right after the first. */
  ghost predicate GroundLayout(gs: seq<int>, width: int)
  {
    |gs| == 2 && gs[1] == gs[0] + width
  }

  /** The ground group after its recycling step. */
  function RecycledGround(gs: seq<int>, width: int): (r: seq<int>)
    requires |gs| >= 2
    ensures |r| == |gs|
  {
    if !IsOffScreen(gs[0], width) then gs
    else
      var rest := gs[1..];
      rest + [MaxOf(seq(|rest|, i requires 0 <= i < |rest| => rest[i] + width))]
  }

  /** `ground_group.update()`: every tile scrolled left. */
  function ScrolledGround(gs: seq<int>): (r: seq<int>)
    ensures |r| == |gs| && forall i :: 0 <= i < |gs| ==> r[i] == gs[i] - GAME_SPEED
  {
    seq(|gs|, i requires 0 <= i < |gs| => gs[i] - GAME_SPEED)
  }

  /** Recycling replaces an off-screen first tile by one right after the second. */
  lemma GroundRecycleShape(gs: seq<int>, width: int)
    requires GroundLayout(gs, width)
    ensures IsOffScreen(gs[0], width) ==> RecycledGround(gs, width) == [gs[1], gs[1] + width]
    ensures !IsOffScreen(gs[0], width) ==> RecycledGround(gs, width) == gs
    ensures GroundLayout(RecycledGround(gs, width), width)
  {
  }

  /** Screen column `px` is drawn by some ground tile. */
  ghost predicate TileAt(gs: seq<int>, width: int, px: int)
  {
    exists i :: 0 <= i < |gs| && gs[i] <= px < gs[i] + width
  }

  /** The ground band is drawn across the whole viewport. */
  ghost predicate GroundCovers(gs: seq<int>, width: int, viewportWidth: int)
  {
    forall px :: 0 <= px < viewportWidth ==> TileAt(gs, width, px)
  }

  /**
   * The ground is aligned when its first tile starts at or left of the
   * screen edge and ends no more than one tick's travel left of it.
   */
  ghost predicate GroundAligned(gs: seq<int>, width: int)
  {
    GroundLayout(gs, width) && gs[0] <= 0 && gs[0] + width >= -GAME_SPEED
  }

  /** An aligned ground of tiles wider than the viewport covers the viewport. */
  lemma AlignedGroundCovers(gs: seq<int>, width: int, viewportWidth: int)
    requires GroundAligned(gs, width) && width >= viewportWidth + GAME_SPEED
    ensures GroundCovers(gs, width, viewportWidth)
  {
    forall px | 0 <= px < viewportWidth ensures TileAt(gs, width, px) {
      if px < gs[0] + width {
        assert gs[0] <= px < gs[0] + width;
      } else {
        assert gs[1] <= px < gs[1] + width;
      }
    }
  }

  /** Recycling, then scrolling, keeps an aligned ground aligned. */
  lemma GroundTickKeepsAligned(gs: seq<int>, width: int)
    requires GroundAligned(gs, width) && width >= GAME_SPEED
    ensures GroundAligned(ScrolledGround(RecycledGround(gs, width)), width)
  {
    GroundRecycleShape(gs, width);
  }

  /**
   * The ground as the BEGIN state leaves it after `ticks` ticks as written
   * (flappy.py:514-515): scrolled every tick and never recycled.
   */
  function IdleGroundAsWritten(gs: seq<int>, ticks: nat): (r: seq<int>)
    ensures |r| == |gs|
  {
    if ticks == 0 then gs else ScrolledGround(IdleGroundAsWritten(gs, ticks - 1))
  }

  /** Without recycling every tile just drifts GAME_SPEED left per tick. */
  lemma {:induction false} IdleGroundDrift(gs: seq<int>, ticks: nat)
    ensures forall i :: 0 <= i < |gs| ==> IdleGroundAsWritten(gs, ticks)[i] == gs[i] - ticks * GAME_SPEED
  {
    if ticks > 0 {
      IdleGroundDrift(gs, ticks - 1);
    }
  }

  /**
   * As written, idling on the start screen runs the ground out: once a
   * round has been reset, after 2W/GAME_SPEED + 1 ticks (W the ground
   * image width) no column of the viewport has a ground tile under it.
   */
  lemma IdleGroundRunsOut(viewportWidth: int, tileWidth: int)
    requires viewportWidth >= BASE_WIDTH && tileWidth > 0
    ensures var w := GroundImageWidth(viewportWidth, tileWidth);
      var gs := IdleGroundAsWritten([0, w], 2 * w / GAME_SPEED + 1);
      forall px :: 0 <= px < viewportWidth ==> !TileAt(gs, w, px)
  {
    var w := GroundImageWidth(viewportWidth, tileWidth);
    var ticks := 2 * w / GAME_SPEED + 1;
    IdleGroundDrift([0, w], ticks);
    var gs := IdleGroundAsWritten([0, w], ticks);
    assert gs[1] + w < 0;
  }

  /* ---------------- The world ---------------- */

  /** The world invariant: ground layout and a paired pipe group of the initial size. */
  ghost predicate Layout(viewportWidth: int, groundWidth: int, ps: seq<Pipe>, gs: seq<int>)
  {
    viewportWidth >= BASE_WIDTH && groundWidth >= viewportWidth + GAME_SPEED &&
    GroundLayout(gs, groundWidth) &&
    Paired(ps) && |ps| == 2 * NumPairs(viewportWidth)
  }

  /**
   * What holds between ticks of a round: the ground is aligned, the oldest
   * pair is at most one tick's travel past the screen edge, the bird is
   * within the viewport and exactly the upright pipes it has passed are scored.
   */
  ghost predicate Steady(viewportWidth: int, groundWidth: int, ps: seq<Pipe>, gs: seq<int>, birdMid: int)
  {
    Layout(viewportWidth, groundWidth, ps, gs) &&
    GroundAligned(gs, groundWidth) &&
    ps[0].Right() >= -GAME_SPEED &&
    birdMid <= viewportWidth &&
    ScoredIffPassed(ps, birdMid)
  }

  /** A freshly laid-out world is steady for a bird inside the viewport. */
  lemma {:induction false} InitialSteady(viewportWidth: int, tileWidth: int, draw: nat -> int, birdMid: int)
    requires viewportWidth >= BASE_WIDTH && tileWidth > 0 && ValidDraws(draw) && birdMid <= viewportWidth
    ensures Steady(viewportWidth, GroundImageWidth(viewportWidth, tileWidth),
                   LaidOutPipes(viewportWidth, draw, NumPairs(viewportWidth)),
                   [0, GroundImageWidth(viewportWidth, tileWidth)], birdMid)
  {
    LayoutPaired(viewportWidth, draw);
    var ps := LaidOutPipes(viewportWidth, draw, NumPairs(viewportWidth));
    forall k | 0 <= k < |ps| ensures !(ps[k].Mid() <= birdMid) {
      assert ps[k].x == ps[0].x + (k / 2) * PIPE_SPACING;
    }
  }

  /** The number of pipes whose `scored` flag is set. */
  function ScoredCount(ps: seq<Pipe>): nat
  {
    if ps == [] then 0
    else ScoredCount(ps[..|ps| - 1]) + if ps[|ps| - 1].scored then 1 else 0
  }

  /** The points a scoring pass awards are exactly the flags it sets. */
  lemma {:induction false} ScorePassCountsNewFlags(ps: seq<Pipe>, birdMid: int)
    ensures ScoredCount(MarkScored(ps, birdMid)) == ScoredCount(ps) + CountScoring(ps, birdMid)
  {
    if ps != [] {
      var n := |ps| - 1;
      ScorePassCountsNewFlags(ps[..n], birdMid);
      assert MarkScored(ps, birdMid)[..n] == MarkScored(ps[..n], birdMid);
    }
  }

  /**
   * The recycled pair appears right of the viewport, so it is unscored and
   * the bird has not passed it; the oldest remaining pair is still on screen.
   */
  lemma {:induction false} RecycleKeepsPassed(viewportWidth: int, ps: seq<Pipe>, birdMid: int, top: int)
    requires viewportWidth > 0 && Paired(ps) && |ps| == 2 * NumPairs(viewportWidth)
    requires ps[0].Right() >= -GAME_SPEED && birdMid <= viewportWidth
    requires ScoredIffPassed(ps, birdMid) && InDrawRange(top)
    ensures ScoredIffPassed(RecycledPipes(ps, top), birdMid)
    ensures RecycledPipes(ps, top)[0].Right() >= 0
    ensures IsOffScreen(ps[0].x, PIPE_WIDTH) ==>
      RecycledPipes(ps, top)[|ps| - 2].x > viewportWidth &&
      RecycledPipes(ps, top)[|ps| - 1].x > viewportWidth
  {
    var r := RecycledPipes(ps, top);
    if IsOffScreen(ps[0].x, PIPE_WIDTH) {
      var n := |ps| / 2;
      assert ps[|ps| - 1].x == ps[0].x + (n - 1) * PIPE_SPACING by {
        assert (|ps| - 1) / 2 == n - 1;
      }
      assert r[|r| - 2].x > viewportWidth;
      assert r[0] == ps[2];
      forall k | 0 <= k < |r| ensures r[k].scored <==> !r[k].inverted && r[k].Mid() <= birdMid {
        if k < |r| - 2 { assert r[k] == ps[k + 2]; }
      }
    }
  }

  /**
   * One PLAYING tick of the world (recycle ground, recycle pipes, scroll
   * both, score) keeps it steady: the new pair always appears right of
   * the bird and each pipe is scored at the tick its centre crosses the bird.
   */
  lemma {:induction false} PlayingTickKeepsSteady(viewportWidth: int, groundWidth: int,
                                                  ps: seq<Pipe>, gs: seq<int>, birdMid: int, top: int)
    requires Steady(viewportWidth, groundWidth, ps, gs, birdMid) && InDrawRange(top)
    ensures Steady(viewportWidth, groundWidth,
                   MarkScored(ScrolledPipes(RecycledPipes(ps, top)), birdMid),
                   ScrolledGround(RecycledGround(gs, groundWidth)), birdMid)
  {
    GroundTickKeepsAligned(gs, groundWidth);
    RecycleKeepsPaired(ps, top);
    RecycleKeepsPassed(viewportWidth, ps, birdMid, top);
    var r := RecycledPipes(ps, top);
    ScrollKeepsPaired(r);
    ScrollAndScoreKeepPassed(r, birdMid);
    MarkKeepsPaired(ScrolledPipes(r), birdMid);
  }

  /** The corrected BEGIN tick of the ground (recycle, then scroll) keeps it steady. */
  lemma BeginTickKeepsSteady(viewportWidth: int, groundWidth: int, ps: seq<Pipe>, gs: seq<int>, birdMid: int)
    requires Steady(viewportWidth, groundWidth, ps, gs, birdMid)
    ensures Steady(viewportWidth, groundWidth, ps, ScrolledGround(RecycledGround(gs, groundWidth)), birdMid)
  {
    GroundTickKeepsAligned(gs, groundWidth);
  }

  /**
   * The world manager. `groundWidth` is the width of the ground image,
   * `viewportWidth` the width the round was laid out for.
   */
  class World {
    const viewportWidth: int
    const groundWidth: int
    var pipes: seq<Pipe>
    /** x of each ground tile, in group order. */
    var grounds: seq<int>
    var score: nat

    ghost predicate Valid()
      reads this
    {
      Layout(viewportWidth, groundWidth, pipes, grounds)
    }

    ghost predicate SteadyFor(birdMid: int)
      reads this
    {
      Steady(viewportWidth, groundWidth, pipes, grounds, birdMid)
    }

    /** The pipes and score `reset_game` leaves for this viewport. */
    ghost predicate FreshPipes(draw: nat -> int)
      reads this`pipes, this`score
    {
      ValidDraws(draw) && viewportWidth > 0 &&
      score == 0 && pipes == LaidOutPipes(viewportWidth, draw, NumPairs(viewportWidth))
    }

    /** The world part of `reset_game`: two ground tiles, the pipe pairs, score 0. */
    constructor (viewportWidth: int, tileWidth: int, draw: nat -> int)
      requires viewportWidth >= BASE_WIDTH && tileWidth > 0 && ValidDraws(draw)
      ensures Valid()
      ensures this.viewportWidth == viewportWidth
      ensures groundWidth == GroundImageWidth(viewportWidth, tileWidth)
      ensures grounds == [0, groundWidth] && score == 0
      ensures pipes == LaidOutPipes(viewportWidth, draw, NumPairs(viewportWidth))
    {
      var width := GroundImageWidth(viewportWidth, tileWidth);
      var numPairs := NumPairs(viewportWidth);
      var ps: seq<Pipe> := [];
      for i := 0 to numPairs
        invariant ps == LaidOutPipes(viewportWidth, draw, i)
      {
        var pair := RandomPipes(viewportWidth + i * PIPE_SPACING, draw(i));
        ps := ps + [pair.0, pair.1];
        assert ps == LaidOutPipes(viewportWidth, draw, i + 1) by {
          var next := LaidOutPipes(viewportWidth, draw, i + 1);
          forall k | 0 <= k < 2 * i + 2 ensures ps[k] == next[k] {
            if k >= 2 * i { assert k / 2 == i; }
          }
        }
      }
      this.viewportWidth := viewportWidth;
      groundWidth := width;
      grounds := [0, width];
      pipes := ps;
      score := 0;
      new;
      LayoutPaired(viewportWidth, draw);
    }

    /** The ground-recycling step of a PLAYING tick. */
    method RecycleGround()
      requires GroundLayout(grounds, groundWidth)
      modifies this`grounds
      ensures GroundLayout(grounds, groundWidth)
      ensures grounds == RecycledGround(old(grounds), groundWidth)
      ensures IsOffScreen(old(grounds[0]), groundWidth) ==>
        grounds == [old(grounds[1]), old(grounds[1]) + groundWidth]
      ensures !IsOffScreen(old(grounds[0]), groundWidth) ==> grounds == old(grounds)
    {
      GroundRecycleShape(grounds, groundWidth);
      var first := grounds[0];
      if IsOffScreen(first, groundWidth) {
        var rest := grounds[1..];
        var lastX := MaxOf(seq(|rest|, i requires 0 <= i < |rest| => rest[i] + groundWidth));
        grounds := rest + [lastX];
      }
    }

    /** The `for _ in range(2)` loop: each turn removes the pipe `sorted(...)[0]` picks. */
    method RemoveOldestPair()
      requires Paired(pipes) && |pipes| >= 4
      modifies this`pipes
      ensures pipes == old(pipes)[2..]
    {
      ghost var start := pipes;
      assert LeftmostIndex(start) == 0 && LeftmostIndex(start[1..]) == 0 by {
        RecycleDropsLeftmost(start);
      }
      for removed := 0 to 2
        invariant pipes == start[removed..]
        invariant removed < 2 ==> LeftmostIndex(pipes) == 0
      {
        assert start[removed..][1..] == start[removed + 1..];
        pipes := RemoveAt(pipes, LeftmostIndex(pipes));
      }
    }

    /** The pipe-recycling step of a PLAYING tick, with the random draw `top`. */
    method RecyclePipes(top: int)
      requires Paired(pipes) && |pipes| >= 4 && InDrawRange(top)
      modifies this`pipes
      ensures pipes == RecycledPipes(old(pipes), top)
    {
      ghost var start := pipes;
      assert LeftmostIndex(start) == 0 by { RecycleDropsLeftmost(start); }
      var leftmost := pipes[LeftmostIndex(pipes)];
      if IsOffScreen(leftmost.x, PIPE_WIDTH) {
        RemoveOldestPair();
        var rightmostX := RightmostX(pipes);
        var pair := RandomPipes(rightmostX + PIPE_SPACING, top);
        pipes := pipes + [pair.0, pair.1];
        assert pipes == RecycledPipes(start, top) by { RecycleSpawnsAt(start, top); }
      } else {
        assert pipes == RecycledPipes(start, top);
      }
    }

    /** `ground_group.update()`. */
    method ScrollGround()
      modifies this`grounds
      ensures grounds == ScrolledGround(old(grounds))
    {
      var i := 0;
      while i < |grounds|
        invariant 0 <= i <= |grounds| == |old(grounds)|
        invariant forall j :: 0 <= j < i ==> grounds[j] == old(grounds[j]) - GAME_SPEED
        invariant forall j :: i <= j < |grounds| ==> grounds[j] == old(grounds[j])
      {
        grounds := grounds[i := grounds[i] - GAME_SPEED];
        i := i + 1;
      }
    }

    /** `pipe_group.update()`. */
    method ScrollPipes()
      modifies this`pipes
      ensures pipes == ScrolledPipes(old(pipes))
    {
      var i := 0;
      while i < |pipes|
        invariant 0 <= i <= |pipes| == |old(pipes)|
        invariant forall j :: 0 <= j < i ==> pipes[j] == Scrolled(old(pipes[j]))
        invariant forall j :: i <= j < |pipes| ==> pipes[j] == old(pipes[j])
      {
        pipes := pipes[i := Scrolled(pipes[i])];
        i := i + 1;
      }
    }

    /** The scoring loop: upright, unscored pipes whose centre window holds the bird's centre. */
    method ScorePass(birdMid: int)
      modifies this`pipes, this`score
      ensures pipes == MarkScored(old(pipes), birdMid)
      ensures score == old(score) + CountScoring(old(pipes), birdMid)
    {
      ghost var start := pipes;
      var i := 0;
      while i < |pipes|
        invariant 0 <= i <= |pipes| == |start|
        invariant forall j :: 0 <= j < i ==> pipes[j] == Marked(start[j], birdMid)
        invariant forall j :: i <= j < |pipes| ==> pipes[j] == start[j]
        invariant score == old(score) + CountScoring(start[..i], birdMid)
      {
        CountScoringStep(start, i, birdMid);
        var p := pipes[i];
        if !p.inverted {
          var pMid := p.Mid();
          if pMid <= birdMid < pMid + GAME_SPEED && !p.scored {
            pipes := pipes[i := p.(scored := true)];
            score := score + 1;
          }
        }
        assert pipes[i] == Marked(start[i], birdMid);
        i := i + 1;
      }
      assert start[..|start|] == start;
      assert pipes == MarkScored(start, birdMid);
    }

    /**
     * The world's part of a PLAYING frame: recycle the ground and the
     * pipes, move both, then score against the bird's centre.
     */
    method Tick(top: int, birdMid: int)
      requires SteadyFor(birdMid) && InDrawRange(top)
      modifies this`grounds, this`pipes, this`score
      ensures SteadyFor(birdMid)
      ensures grounds == ScrolledGround(RecycledGround(old(grounds), groundWidth))
      ensures pipes == MarkScored(ScrolledPipes(RecycledPipes(old(pipes), top)), birdMid)
      ensures score == old(score) + CountScoring(ScrolledPipes(RecycledPipes(old(pipes), top)), birdMid)
    {
      ghost var ps, gs := pipes, grounds;
      RecycleGround();
      RecyclePipes(top);
      ScrollGround();
      ScrollPipes();
      ghost var moved, scoreBefore := pipes, score;
      assert moved == ScrolledPipes(RecycledPipes(ps, top)) && scoreBefore == old(score);
      ScorePass(birdMid);
      assert score == scoreBefore + CountScoring(moved, birdMid);
      PlayingTickKeepsSteady(viewportWidth, groundWidth, ps, gs, birdMid, top);
    }
  }
}

=== FILE: wrappers.dfy ===
/** Optional values: the model's stand-in for Python's `None`. */
module Wrappers {

  datatype Option<+T> = None | Some(value: T)
}
